=== FILE: README.md ===
# SASS closed-loop core in Dafny

This project models three pieces of the SASS (Simulated Acquisition for
Super-resolution Support) microscopy simulator and proves properties of them.

- **Spot counting** (`SpotCounterCore`, `SpotCounter`). Every local maximum of a
  frame becomes a square region. Each spot gets the distance to its nearest
  neighbour. The sorted distances are reduced to a minimum, a mean and the
  "p10" element at index `ceil(n / 10)`. The evaluation algorithm runs the core
  over a stack of frames and keeps four per-frame lists, read back with 1-based
  frame numbers.
- **The closed-loop run** (`ImageJSimulator.execute`, `saveToCsv`,
  `incrementCounter`, `getImageCount`). Each step obtains a frame and feeds it to
  the analyzer. On every `refresh`-th step the controller turns the analyzer's
  batch output into a new control signal for the microscope. Every step records
  one history entry. The history is then written out as CSV rows.
- **The camera's point-spread-function kernels** (`Camera`). These are the
  derived constants, the odd kernel size, `generateGaussianFilter`,
  `getMaximum` and `multiplyBy`, and the rescaling that gives both kernels the
  same peak.

Files:

- `results.dfy` holds `Option`, `Result` and `Outcome`.
- `java_int.dfy` holds the parts of Java `int` arithmetic the code relies on: wrap-around, `/ 2` and the `(int)` cast.
- `sorting.dfy` models `Arrays.sort` on `double[]` and the sum.
- `spot_counter_core.dfy` and `spot_counter.dfy` hold the spot counter.
- `image_j_simulator.dfy` holds the run.
- `camera.dfy` holds the kernels.

Design decisions:

- **Collaborators as functions.** Code that lives outside these files is passed in as functions:
  - `FindLocalMaxima.FindMax` and `Math.sqrt`, in `SpotCounterCore.Detector`;
  - the microscope, analyzer and controller, as state-transition functions in `ImageJSimulator.Env`;
  - `exp(num / (2 sigma^2))`, as the parameter `gauss(num, sigma)` of the camera functions.
- **Exceptions are values.** They are `Err`/`Fail` results carrying the exception, so every error path is modelled:
  - the out-of-bounds reads of `getFrameStats` for 0 and 1 spots;
  - `processStack` without a stack;
  - a missing key in `setCustomParameters`;
  - a failing `getNextImage`;
  - a negative or even kernel size;
  - `multiplyBy` on an empty or ragged grid.
- **Java integers.** Java `int` wrap-around is written out in these places:
  - the exponent `-(sx*sx + sy*sy)`;
  - `2 * (int) fwhm_digital + 1`;
  - `image_no--`;
  - `image_count++`;
  - the loop counter of `saveToCsv`. When `image_count` is `Integer.MAX_VALUE` the counter wraps before it can exceed `image_count`, so the call never returns. `ImageJSimulator.SaveToCsv` returns `Endless` for that count.
- **The loop counter of `execute`.** It has the same problem at `no_of_images == Integer.MAX_VALUE`. There it is excluded by a precondition instead (see "Left out").
- **Reals for doubles.** Doubles are modelled as reals.
- **Run log.** A run also returns a log of events: a frame obtained at a step, or a control signal sent at a step. This states how many controller updates happened, and when.

Three behaviours of the code are easy to miss:

- **Odd kernel size.** The size `2 * (int) fwhm_digital + 1` is odd even after wrap-around. So the odd-size check of `generateGaussianFilter` never fires from the constructor. The only failure left there is a negative array size (`Camera.KernelSize`, `Camera.NewCamera`).
- **Too few spots.** For 0 spots the read of `min_distances[0]` is already out of bounds. For 1 spot that read succeeds, but the p10 read at index `ceil(1 / 10) = 1` is out of bounds. Either way `getFrameStats` throws `ArrayIndexOutOfBounds`. This is modelled as an explicit error result, and the exception ends `processStack` (`SpotCounterCore.GetFrameStats`, `SpotCounter.ScanFailsAtFirstShortFrame`).
- **History.** `execute` only adds entries `1..n` to the history map and never clears it. Entries from an earlier run with other ids survive (`ImageJSimulator.Execute`).

## Model

| member | source | states |
|---|---|---|
| `JavaInt.Wrap` | src/main/java/ch/epfl/leb/sass/simulator/internal/ImageJSimulator.java:205 | Java `int` arithmetic gives an `int` congruent to the exact result modulo 2^32, and the exact result itself when that is in range |
| `JavaInt.Half` | src/algorithm_tester/spotcounter/SpotCounter.java:257 | `boxSize / 2` truncates toward zero: the remainder is at most 1 in size and has the sign of the dividend |
| `JavaInt.CastToInt` | src/algorithm_tester/generators/realtimegenerator/Camera.java:74 | `(int) x` truncates toward zero inside the `int` range and saturates at its ends |
| `Sorting.Insert` | src/algorithm_tester/spotcounter/SpotCounter.java:234 | inserting into an ascending sequence keeps it ascending, adds exactly one copy of the value and adds the value to the sum |
| `Sorting.Sort` | src/algorithm_tester/spotcounter/SpotCounter.java:234 | the sorted array is ascending, is a permutation of the input, and has the same sum, so the mean is unchanged by sorting |
| `Sorting.SortedPermutationUnique` | src/algorithm_tester/spotcounter/SpotCounter.java:234-243 | any two ascending permutations of the same values are equal, so element 0 and element `ceil(n/10)` do not depend on the sorting algorithm |
| `SpotCounterCore.SpotRoi` | src/algorithm_tester/spotcounter/SpotCounter.java:257-264 | a maximum's region has side `boxSize` and lies `boxSize / 2` up and left of the maximum |
| `SpotCounterCore.SpotOverlay` | src/algorithm_tester/spotcounter/SpotCounter.java:254-270 | one region per maximum, in the detector's order, so the overlay size (the reported count `n`) is the number of maxima |
| `SpotCounterCore.OverlayDistanceIsPixelDistance` | src/algorithm_tester/spotcounter/SpotCounter.java:224-227 | centre-to-centre squared distance of two regions is the integer `dx^2 + dy^2` of their maxima |
| `SpotCounterCore.CentreDist2Symmetric` | src/algorithm_tester/spotcounter/SpotCounter.java:224-227 | the squared centre distance does not depend on which spot comes first |
| `SpotCounterCore.NearestFrom` | src/algorithm_tester/spotcounter/SpotCounter.java:219-230 | the inner loop's running minimum is at most its start value and every distance to a later spot other than `i`, and equals one of those |
| `SpotCounterCore.NearestDist2` | src/algorithm_tester/spotcounter/SpotCounter.java:217-231 | a spot's squared nearest-neighbour distance is `min(1e9, min over j != i of dist2(i, j))`, never a distance of a spot to itself |
| `SpotCounterCore.P10Index` | src/algorithm_tester/spotcounter/SpotCounter.java:242 | the p10 index is the least `k` with `n <= 10k`, that is `ceil(n / 10)` |
| `SpotCounterCore.P10InBounds` | src/algorithm_tester/spotcounter/SpotCounter.java:240-243 | index `ceil(n/10)` lies inside an `n`-element array exactly when `n >= 2` |
| `SpotCounterCore.GetFrameStats` | src/algorithm_tester/spotcounter/SpotCounter.java:212-245 | fails with the out-of-bounds read at index 0 for no spot and at index 1 for one spot. Otherwise min is the least distance, mean is sum / n, p10 is element `ceil(n/10)` of every ascending arrangement, and min <= p10 |
| `SpotCounterCore.SummarisesSorted` | src/algorithm_tester/spotcounter/SpotCounter.java:234-243 | reading element 0, the sum and element `ceil(n/10)` off the sorted copy gives the order statistics of the unsorted distances |
| `SpotCounterCore.SortedHeadIsLeast` | src/algorithm_tester/spotcounter/SpotCounter.java:234-240 | element 0 of the sorted array is one of the distances and no larger than any of them |
| `SpotCounterCore.TwoSpotDistances` | src/algorithm_tester/spotcounter/SpotCounter.java:217-231 | with two spots each one's nearest-neighbour distance is their separation |
| `SpotCounterCore.SortEqualPair` | src/algorithm_tester/spotcounter/SpotCounter.java:234 | sorting two equal values leaves them as they are |
| `SpotCounterCore.TwoSpots` | src/algorithm_tester/spotcounter/SpotCounter.java:217-243 | with exactly two spots min, mean and p10 all equal their separation |
| `SpotCounterCore.Analyze` | src/algorithm_tester/spotcounter/SpotCounter.java:157-175 | the table is created on first use and gains exactly one row per call. Earlier rows are kept, and the new row holds the number of maxima. Its distance columns are set, and the table is returned, exactly when the frame has at least two maxima. Otherwise the error is `getFrameStats`' own, `ArrayIndexOutOfBounds` at index `n` of length `n` for the `n < 2` maxima |
| `SpotCounter.Init` | src/algorithm_tester/spotcounter/SpotCounter.java:62-68 | empties the four lists and builds a new core, with no table, from the current tolerance and box size, and changes nothing else |
| `SpotCounter.New` | src/algorithm_tester/spotcounter/SpotCounter.java:52-60 | a new counter has tolerance 100 and box size 5, holds exactly the parameters `noise-tolerance = 100` and `box-size = 5`, has empty lists and no stack, and its core uses those values |
| `SpotCounter.ScanFrom` | src/algorithm_tester/spotcounter/SpotCounter.java:78-84 | the loop either reads one row per remaining frame, or stops early, at a frame whose statistics throw, having analyzed one frame more than it read. A failure is always the `getFrameStats` exception; one raised by the first remaining frame carries that frame's maxima count `n < 2` as index and length. A row left without statistics by an earlier call reads as empty cells and does not stop the loop |
| `SpotCounter.AppendReadings` | src/algorithm_tester/spotcounter/SpotCounter.java:80-83 | the four lists grow by one value per frame read, in frame order, keeping earlier values and staying the same length |
| `SpotCounter.StaleRowRead` | src/algorithm_tester/spotcounter/SpotCounter.java:78-83 | without `init` in between, the first frame of a second call reads row 0 of the earlier call; a row whose statistics had failed reads as empty cells (0.0) rather than throwing |
| `SpotCounter.ProcessStack` | src/algorithm_tester/spotcounter/SpotCounter.java:76-85 | without a stack it throws and changes nothing. Otherwise it only appends to the lists, one value to each list per frame read, keeps the configuration, and succeeds exactly when every frame added a value |
| `SpotCounter.ReadsFramesCons` | src/algorithm_tester/spotcounter/SpotCounter.java:78-84 | one frame's reading in front of the readings of the following frames reads the frames from that one on |
| `SpotCounter.ScanStep` | src/algorithm_tester/spotcounter/SpotCounter.java:78-84 | when the table holds only this call's rows, the row read back for frame `i` is frame `i`'s own row, and a frame with fewer than two maxima stops the loop |
| `SpotCounter.ScanReadsOwnRows` | src/algorithm_tester/spotcounter/SpotCounter.java:78-84 | on a fresh core the value read for each frame is that frame's count and statistics, in frame order |
| `SpotCounter.ScanPassesIffAllHavePairs` | src/algorithm_tester/spotcounter/SpotCounter.java:78-84 | on a fresh core the loop completes exactly when every frame has at least two maxima |
| `SpotCounter.StopsAtShortFrameCons` | src/algorithm_tester/spotcounter/SpotCounter.java:78-84 | a failure after one more successful frame still points at the first frame with fewer than two maxima |
| `SpotCounter.ScanFailsAtFirstShortFrame` | src/algorithm_tester/spotcounter/SpotCounter.java:78-84 | on a fresh core a failed loop stopped with the `getFrameStats` exception at the first frame with fewer than two maxima, and the exception is `ArrayIndexOutOfBounds` at index `n` of length `n`, that frame's maxima count |
| `SpotCounter.RecordsReadings` | src/algorithm_tester/spotcounter/SpotCounter.java:80-83 | appending the readings of frames `0, 1, ...` to empty lists puts frame `k`'s values at position `k` |
| `SpotCounter.ProcessStackFresh` | src/algorithm_tester/spotcounter/SpotCounter.java:76-85 | after `init`, `processStack` succeeds exactly when every frame has at least two maxima, and position `k` of each list then holds frame `k + 1`'s value |
| `SpotCounter.GetOutputValues` | src/algorithm_tester/spotcounter/SpotCounter.java:88-96 | frame number `k` (1-based) succeeds exactly when `1 <= k <= size`, returning list entry `k - 1` under `spot-count`, `min-dist`, `mean-dist`, `p10-dist` in that order |
| `SpotCounter.SetCustomParameters` | src/algorithm_tester/spotcounter/SpotCounter.java:105-110 | with both keys present it adopts the map and empties the lists, and the new core uses the new tolerance and box size. A missing key throws, keeping the assignments made before it |
| `SpotCounter.OutputOfRecordedFrame` | src/algorithm_tester/spotcounter/SpotCounter.java:88-96 | asking for the frame recorded at position `k` by number `k + 1` returns that frame's count and statistics |
| `SpotCounter.TwoSpotFrame` | src/algorithm_tester/spotcounter/SpotCounter.java:217-264 | a frame with two maxima at squared pixel separation `d2` reports min = mean = p10 = `sqrt(d2)` |
| `SpotCounter.TwoSpotOutput` | src/algorithm_tester/spotcounter/SpotCounter.java:88-96 | a recorded frame with two maxima at squared separation `d2` reads back as count 2 and min = mean = p10 = `sqrt(d2)` |
| `SpotCounter.TwoSpotRecorded` | src/algorithm_tester/spotcounter/SpotCounter.java:88-96 | lists that record only such frames read back that way for every frame number `1..n` |
| `SpotCounter.TwoSpotStack` | src/algorithm_tester/spotcounter/SpotCounter.java:76-110 | a counter configured by `setCustomParameters` and run over frames with two maxima each reports count 2 and min = mean = p10 = the separation for every frame number |
| `ImageJSimulator.AppendEvent` | src/main/java/ch/epfl/leb/sass/simulator/internal/ImageJSimulator.java:113-124 | logging a frame adds its step to the frame steps only, and logging a control signal adds its step to the control steps only |
| `ImageJSimulator.OrderedIsCausal` | src/main/java/ch/epfl/leb/sass/simulator/internal/ImageJSimulator.java:113-124 | in a time-ordered log a control signal from step `s` precedes exactly the frames of steps after `s` |
| `ImageJSimulator.RefreshStepIffMultiple` | src/main/java/ch/epfl/leb/sass/simulator/internal/ImageJSimulator.java:121 | among steps `1..n` the controller is consulted at step `k` exactly when `k` is one of the `n / refresh` multiples of `refresh` |
| `ImageJSimulator.MultiplesStep` | src/main/java/ch/epfl/leb/sass/simulator/internal/ImageJSimulator.java:121 | going from step `n - 1` to `n` adds one refresh step exactly when `n % refresh == 0` |
| `ImageJSimulator.CsvRow` | src/main/java/ch/epfl/leb/sass/simulator/internal/ImageJSimulator.java:173-184 | the row for frame `id` carries that id and reads back to exactly the history entry with that id, or to nothing when there is none |
| `ImageJSimulator.SaveToCsv` | src/main/java/ch/epfl/leb/sass/simulator/internal/ImageJSimulator.java:167-186 | never returns exactly when `image_count` is `Integer.MAX_VALUE`. Otherwise it writes two header lines, then one row per id `1..image_count` in order. A row has four values when its id has an entry, and only its id otherwise |
| `ImageJSimulator.ParseRows` | src/main/java/ch/epfl/leb/sass/simulator/internal/ImageJSimulator.java:172-185 | every entry read back comes from a row of the file carrying exactly that id and those values |
| `ImageJSimulator.HistoryUpToStep` | src/main/java/ch/epfl/leb/sass/simulator/internal/ImageJSimulator.java:172-173 | the entries up to id `n` are those up to `n - 1` plus entry `n` if it exists |
| `ImageJSimulator.ParseRowsUpTo` | src/main/java/ch/epfl/leb/sass/simulator/internal/ImageJSimulator.java:172-185 | the rows for ids `1..n` read back to exactly the history entries with those ids |
| `ImageJSimulator.CsvRoundTrip` | src/main/java/ch/epfl/leb/sass/simulator/internal/ImageJSimulator.java:156-190 | round trip: when the file is written, its data rows read back to exactly the history entries for ids `1..image_count` |
| `ImageJSimulator.IncrementCounter` | src/main/java/ch/epfl/leb/sass/simulator/internal/ImageJSimulator.java:204-206 | raises the image count by one, wrapping at the largest `int`, and changes nothing else |
| `ImageJSimulator.CountAfterIncrements` | src/main/java/ch/epfl/leb/sass/simulator/internal/ImageJSimulator.java:204-215 | `k` increments without overflow make `getImageCount` report `k` more and change nothing else |
| `ImageJSimulator.Step` | src/main/java/ch/epfl/leb/sass/simulator/internal/ImageJSimulator.java:110-136 | a step fails exactly when the microscope cannot produce a frame. Otherwise it records entry `i` from the state the step left. On a refresh step the controller takes the analyzer's batch output and its new output is sent to the microscope, after the frame. Otherwise the controller and the microscope are left as the frame left them. The analyzer ends in the state left by processing the frame, then (on a refresh step) producing the batch output, then producing the intermittent output, which is the output recorded |
| `ImageJSimulator.OrderedAppend` | src/main/java/ch/epfl/leb/sass/simulator/internal/ImageJSimulator.java:113-124 | step `i`'s frame and control signal come after everything logged at earlier steps |
| `ImageJSimulator.StepKeepsEvents` | src/main/java/ch/epfl/leb/sass/simulator/internal/ImageJSimulator.java:113-125 | after step `i` the log holds frames `1..i`, control signals at the multiples of `refresh` up to `i`, all in time order |
| `ImageJSimulator.StepCounts` | src/main/java/ch/epfl/leb/sass/simulator/internal/ImageJSimulator.java:113-125 | step `i` adds its frame, and its control signal exactly when it is a refresh step |
| `ImageJSimulator.StepKeepsHistory` | src/main/java/ch/epfl/leb/sass/simulator/internal/ImageJSimulator.java:127-135 | after step `i` the history has entries `1..i` with their true signals and keeps every other entry |
| `ImageJSimulator.StepKeepsController` | src/main/java/ch/epfl/leb/sass/simulator/internal/ImageJSimulator.java:121-130 | after step `i` every signal sent equals its step's recorded output, and a non-refresh entry repeats the previous controller values |
| `ImageJSimulator.StepKeepsRunSoFar` | src/main/java/ch/epfl/leb/sass/simulator/internal/ImageJSimulator.java:110-136 | one pass of the loop preserves the loop invariant of `execute` |
| `ImageJSimulator.RunFrom` | src/main/java/ch/epfl/leb/sass/simulator/internal/ImageJSimulator.java:110-136 | the loop as a fold of `Step`: it ends after step `noImages` or at the first frame the microscope fails to produce, in the state whose `getNextImage` failed and with its message; one source per completed step, the last one the final state's |
| `ImageJSimulator.Generate` | src/main/java/ch/epfl/leb/sass/simulator/internal/ImageJSimulator.java:108-136 | the loop's result is exactly the fold `RunFrom` of `Step` from step 1 with the pixel size read once, and it establishes the run invariant; it stops after `noImages` steps or at the first frame that fails, whose `getNextImage` error it returns |
| `ImageJSimulator.Execute` | src/main/java/ch/epfl/leb/sass/simulator/internal/ImageJSimulator.java:98-151 | rejects `no_of_images < 1` or `refresh < 1` before any frame. Otherwise frames `1..n` are logged and the controller is consulted exactly on the multiples of `refresh`, after that step's frame. History ids `1..n` are added and other entries kept. The log, sources and final object are those of the fold of `Step` (`ImageJSimulator.RunFrom`), so each step's controller and microscope change as `Step` states. A run ends `ImageFailed` exactly when a frame fails, with the message `getNextImage` gave in the state it failed in; the earlier entries are kept and no CSV is written. A completed run has `image_count == no_of_images` and writes the CSV exactly when a path is given |
| `ImageJSimulator.CompletedRun` | src/main/java/ch/epfl/leb/sass/simulator/internal/ImageJSimulator.java:110-186 | a completed run sent exactly `N / refresh` control signals, each affecting only later frames, and its CSV file is written, with rows that are all complete and read back to every id `1..N` |
| `Camera.ExponentAbs` | src/algorithm_tester/generators/realtimegenerator/Camera.java:89 | the integer exponent depends only on the distances from the centre |
| `Camera.ExponentSwap` | src/algorithm_tester/generators/realtimegenerator/Camera.java:89 | the exponent is symmetric in the two offsets |
| `Camera.ExponentExact` | src/algorithm_tester/generators/realtimegenerator/Camera.java:89 | for kernels of side below 65536 the `int` exponent is exactly `-(sx^2 + sy^2)` |
| `Camera.OffsetCell` | src/algorithm_tester/generators/realtimegenerator/Camera.java:89-94 | a cell's weight depends only on the distances of its row and column from the centre |
| `Camera.Put` | src/algorithm_tester/generators/realtimegenerator/Camera.java:91 | one array assignment changes exactly one cell |
| `Camera.PutMirrored` | src/algorithm_tester/generators/realtimegenerator/Camera.java:91-94 | the four assignments set exactly the cells at offsets `(+-sx, +-sy)` from the centre |
| `Camera.FillStep` | src/algorithm_tester/generators/realtimegenerator/Camera.java:87-95 | each inner iteration extends the filled region by the cells at offset `(sx, sy)` |
| `Camera.FillRow` | src/algorithm_tester/generators/realtimegenerator/Camera.java:87-96 | a finished inner loop completes row offset `sx` |
| `Camera.GenerateGaussianFilter` | src/algorithm_tester/generators/realtimegenerator/Camera.java:82-98 | a negative size fails at allocation and an even size is rejected. Otherwise every cell `(i, j)` of the `size x size` grid is assigned the weight of its offset from the centre |
| `Camera.KernelUnique` | src/algorithm_tester/generators/realtimegenerator/Camera.java:86-96 | a kernel is determined by its size and width |
| `Camera.MirroredCell` | src/algorithm_tester/generators/realtimegenerator/Camera.java:89-94 | mirroring a cell's row or column, or swapping row and column, keeps its weight |
| `Camera.KernelSymmetries` | src/algorithm_tester/generators/realtimegenerator/Camera.java:89-94 | the kernel is invariant under row flip, column flip, 180-degree rotation and transpose |
| `Camera.KernelCentre` | src/algorithm_tester/generators/realtimegenerator/Camera.java:89-94 | the centre cell holds the weight at offset 0 |
| `Camera.MaxOrZeroUnique` | src/algorithm_tester/generators/realtimegenerator/Camera.java:100-109 | at most one value is the maximum-or-zero of a grid |
| `Camera.RowMax` | src/algorithm_tester/generators/realtimegenerator/Camera.java:103-106 | the inner loop's result is at least its start, bounds every cell of the row, and is the start or a cell |
| `Camera.GridMax` | src/algorithm_tester/generators/realtimegenerator/Camera.java:101-108 | the outer loop's result is at least its start, bounds every cell, and is the start or a cell |
| `Camera.GetMaximum` | src/algorithm_tester/generators/realtimegenerator/Camera.java:100-109 | the result is >= 0 and >= every cell, and is some cell or 0 |
| `Camera.MultiplyBy` | src/algorithm_tester/generators/realtimegenerator/Camera.java:111-120 | the result has the input's row count and first-row width, and each cell is the input cell times the factor. An empty grid, or a row longer than the first, throws |
| `Camera.ScaledBound` | src/algorithm_tester/generators/realtimegenerator/Camera.java:111-120 | scaling by a non-negative factor scales an upper bound |
| `Camera.ScaledMaxOrZero` | src/algorithm_tester/generators/realtimegenerator/Camera.java:100-120 | scaling by a non-negative factor scales the maximum |
| `Camera.ScaledKernel` | src/algorithm_tester/generators/realtimegenerator/Camera.java:111-120 | scaling a kernel gives every cell's weight times the factor |
| `Camera.KernelSize` | src/algorithm_tester/generators/realtimegenerator/Camera.java:74 | the kernel size is odd even after wrap-around, so the constructor never reaches the even-size check. It equals `2 floor(fwhm_digital) + 1 >= 1` for `0 <= fwhm_digital < 2^30`, and is negative exactly when the `int` arithmetic overflows upwards or the cast is negative |
| `Camera.Fwhm` | src/algorithm_tester/generators/realtimegenerator/Camera.java:68-71 | `fwhm * radius * NA = 0.61 λ` |
| `Camera.FwhmDigital` | src/algorithm_tester/generators/realtimegenerator/Camera.java:68-72 | `fwhm_digital * pixel_size * NA = 0.61 λ * magnification` |
| `Camera.SigmaDigital` | src/algorithm_tester/generators/realtimegenerator/Camera.java:77 | the digital kernel's width times 2.3548 is `fwhm_digital` |
| `Camera.Sigma` | src/algorithm_tester/generators/realtimegenerator/Camera.java:78 | the object-space kernel's width times 2.3548 is `fwhm` |
| `Camera.GenerateGaussianFilterIsFilter` | src/algorithm_tester/generators/realtimegenerator/Camera.java:82-98 | the loop's result is the closed-form kernel, and its failures are those of the closed form |
| `Camera.KernelPeak` | src/algorithm_tester/generators/realtimegenerator/Camera.java:77-79 | a kernel whose centre weight is `exp(0) = 1` has a maximum of at least 1, so the ratio of maxima is defined |
| `Camera.RatioRescales` | src/algorithm_tester/generators/realtimegenerator/Camera.java:79 | rescaling a grid with maximum `b > 0` by `a / b` gives a grid with maximum `a` |
| `Camera.Kernels` | src/algorithm_tester/generators/realtimegenerator/Camera.java:77-79 | for an odd size, kernel construction fails exactly on a negative size, with the allocation error |
| `Camera.KernelsShape` | src/algorithm_tester/generators/realtimegenerator/Camera.java:77-79 | the digital kernel is the Gaussian of its width. The other is the Gaussian of its own width times a positive factor, and the two kernels' maxima are equal |
| `Camera.MakeCamera` | src/algorithm_tester/generators/realtimegenerator/Camera.java:51-72 | the camera keeps its inputs and the derived constants satisfy `thermal_noise * acq_speed = dark_current`, `quantum_gain = QE * gain` and the two FWHM equations |
| `Camera.NewCamera` | src/algorithm_tester/generators/realtimegenerator/Camera.java:48-80 | the constructor fails exactly when the kernel size is negative, with that allocation error. Otherwise it builds the camera from the derived constants and the two kernels |
| `Camera.CameraKernels` | src/algorithm_tester/generators/realtimegenerator/Camera.java:74-79 | a constructed camera's kernels have the same odd size `>= 1`. One is the pixel-space Gaussian; the other is the object-space Gaussian scaled positively, and their peaks are equal |

## Left out

- **`FindLocalMaxima.FindMax`, `Math.sqrt`, `Math.exp`.** They are not part of this model and are function parameters. Nothing is claimed about noise-tolerance behaviour. About the Gaussian only `exp(0) = 1` is used.
- **IEEE-754 doubles.** Doubles are reals, so NaN, infinities and rounding are not modelled.
- **Division by zero.** `Camera.NewCamera`, `Camera.MakeCamera` and the derived-constant functions require non-zero `acq_speed`, `NA`, `radius` and `pixel_size`. They also require `gauss(0, sigma) = 1` for both widths. In Java a zero divisor gives an infinity or NaN rather than an exception.
- **Ratio of maxima.** `Camera.KernelsShape` and `Camera.CameraKernels` state the equal-peak property in real arithmetic only. The maximum of the object-space kernel is shown to be at least 1, so the ratio is defined.
- **Analyze's table.** `SpotCounterCore.Analyze` models the `ResultsTable` as a list of rows with "n" and the optional distance columns. Display precision (line 165) and the commented-out block (lines 177-207) are left out.
- **The stale-row read.** `SpotCounter.ScanFrom` and `SpotCounter.ProcessStack` model `processStack` as written: it reads row `i - 1` of a table that only `init` resets. A second `processStack` on the same core therefore reads rows of earlier calls. This is modelled. The current frame's row always sets the three distance columns before the read, so the columns exist. A row whose statistics failed in an earlier call therefore reads as `ResultsTable`'s empty cell, 0.0, and the loop goes on (`SpotCounter.StaleRowRead`). `ResultsTable` itself is not part of this model; 0.0 is its empty-cell value unless a table is switched to NaN empty cells, which this code never does. The frame-by-frame correspondence is proved only for a fresh core (`SpotCounter.ProcessStackFresh`).
- **`getName`, `getCustomParameters`, `setImageStack`, `ImageJSimulator.GetImageCount`.** These are plain getters and setters, so none of them has a contract.
- **`ImageJSimulator.saveStack`.** It calls itself without end. The model ends such a run with a `SaveStackOverflow` after the CSV is written. TIFF output and `getStack` are left out.
- **File output.** `saveToCsv`'s `PrintWriter`, `FileNotFoundException` and `%8.4e` formatting are left out. A row carries its real values, and the `JSONException` branches are not modelled (the put and get of finite doubles do not throw).
- **`ImageJSimulator.Execute`.** It requires `no_of_images < Integer.MAX_VALUE`, because at that value the Java loop counter overflows and the loop never ends. `ImageJSimulator.CompletedRun` describes a completed run, so it has the same precondition.
- **The `ImageJSimulator` constructor.** Analyzer and controller internals, and `DefaultSimulator`, are collaborators given as functions. Their source is not part of this model.
- **`SpotCounter.GetOutputValues`.** It requires the lists to hold at most `Integer.MAX_VALUE` values, the capacity of an `ArrayList`.
- **Out-of-memory errors** from large allocations are not modelled.
- **Other classes.** `AlgorithmTester`, `ConsoleFrame` and the interface-only files (`Simulator`, `SimulationManager`, `Obstructor`, `EvaluationAlgorithm`) are GUI, threading or signatures without behaviour.

=== FILE: camera.dfy ===
/** `Camera`: the detector parameters of the real-time generator and the two
    point-spread-function kernels derived from them. Kernels are square grids
    of reals. The Gaussian `gauss(num, sigma) = exp(num / (2 sigma^2))` is an
    opaque function; only `gauss(0, sigma) = 1` is used about it. */
module Camera {
  import opened Results
  import JavaInt

  type Grid = seq<seq<real>>

  /** The exceptions of kernel construction. */
  datatype Error =
    | NegativeArraySize(size: int)           // `new double[size][size]` with a negative size
    | EvenFilterSize(size: int)              // the odd-size check of `generateGaussianFilter`
    | IndexOutOfBounds(index: int, length: int)

  /** Radius of the Airy disk in units of wavelength / NA. */
  const AiryFactor: real := 0.61
  /** Ratio of a Gaussian's full width at half maximum to its sigma. */
  const FwhmPerSigma: real := 2.3548

  function Abs(n: int): nat {
    if n < 0 then -n else n
  }

  /** `-(sx*sx + sy*sy)` evaluated in Java `int` arithmetic. */
  function Exponent(sx: int, sy: int): int {
    JavaInt.Wrap(-JavaInt.Wrap(JavaInt.Wrap(sx * sx) + JavaInt.Wrap(sy * sy)))
  }

  /** The exponent depends only on the distances from the centre. */
  lemma ExponentAbs(sx: int, sy: int)
    ensures Exponent(sx, sy) == Exponent(Abs(sx), Abs(sy))
  {
    assert sx * sx == Abs(sx) * Abs(sx) && sy * sy == Abs(sy) * Abs(sy);
  }

  lemma ExponentSwap(sx: int, sy: int)
    ensures Exponent(sy, sx) == Exponent(sx, sy)
  {
  }

  lemma {:induction false} MulMono(x: nat, y: nat, z: nat)
    requires y <= z
    ensures x * y <= x * z
  {
    if x > 0 {
      MulMono(x - 1, y, z);
      assert x * y == (x - 1) * y + y && x * z == (x - 1) * z + z;
    }
  }

  lemma SquareBound(a: int)
    requires Abs(a) <= 32767
    ensures 0 <= a * a <= 32767 * 32767
  {
    var b := Abs(a);
    assert a * a == b * b;
    MulMono(b, b, 32767);
    MulMono(32767, b, 32767);
  }

  /** No wrap-around happens for offsets below 2^15, that is for kernels of
      side below 65536. */
  lemma ExponentExact(sx: int, sy: int)
    requires Abs(sx) <= 32767 && Abs(sy) <= 32767
    ensures Exponent(sx, sy) == -(sx * sx + sy * sy)
  {
    SquareBound(sx);
    SquareBound(sy);
  }

  /** The value of cell `(i, j)` of a kernel centred on `(mid, mid)`. */
  function Cell(gauss: (int, real) -> real, mid: int, i: int, j: int, sigma: real): real {
    gauss(Exponent(i - mid, j - mid), sigma)
  }

  /** A cell's value depends only on the distances of its row and column
      from the centre. */
  lemma OffsetCell(gauss: (int, real) -> real, mid: int, i: int, j: int, sx: nat, sy: nat, sigma: real)
    requires Abs(i - mid) == sx && Abs(j - mid) == sy
    ensures Cell(gauss, mid, i, j, sigma) == gauss(Exponent(sx, sy), sigma)
  {
    ExponentAbs(i - mid, j - mid);
  }

  predicate IsSquare(g: Grid, size: nat) {
    |g| == size && forall i :: 0 <= i < size ==> |g[i]| == size
  }

  /** A `size` by `size` grid whose every cell holds the Gaussian weight of
      its offset from the centre. */
  predicate IsGaussianKernel(g: Grid, size: nat, sigma: real, gauss: (int, real) -> real)
  {
    && IsSquare(g, size)
    && forall i, j :: 0 <= i < size && 0 <= j < size ==> g[i][j] == Cell(gauss, (size - 1) / 2, i, j, sigma)
  }

  /** `g` with cell `(i, j)` set to `v`. */
  function Put(g: Grid, size: nat, i: int, j: int, v: real): (r: Grid)
    requires IsSquare(g, size) && 0 <= i < size && 0 <= j < size
    ensures IsSquare(r, size)
    ensures forall a, b :: 0 <= a < size && 0 <= b < size ==> r[a][b] == (if a == i && b == j then v else g[a][b])
  {
    g[i := g[i][j := v]]
  }

  /** The four assignments of one inner iteration: the cells at offsets
      `(+-sx, +-sy)` from the centre get `v`. */
  function PutMirrored(g: Grid, size: nat, mid: int, sx: nat, sy: nat, v: real): (r: Grid)
    requires IsSquare(g, size) && size == 2 * mid + 1 && sx <= mid && sy <= mid
    ensures IsSquare(r, size)
    ensures forall a, b :: 0 <= a < size && 0 <= b < size ==>
              r[a][b] == (if Abs(a - mid) == sx && Abs(b - mid) == sy then v else g[a][b])
  {
    var g1 := Put(g, size, mid + sx, mid + sy, v);
    var g2 := Put(g1, size, mid + sx, mid - sy, v);
    var g3 := Put(g2, size, mid - sx, mid + sy, v);
    Put(g3, size, mid - sx, mid - sy, v)
  }

  /** The loop invariant of `generateGaussianFilter`: every cell less than
      `sx` rows from the centre, and every cell `sx` rows and less than `sy`
      columns from it, holds its weight. */
  predicate FilledUpTo(g: Grid, size: nat, mid: int, sx: int, sy: int, sigma: real, gauss: (int, real) -> real)
    requires IsSquare(g, size)
  {
    forall i, j :: 0 <= i < size && 0 <= j < size && (Abs(i - mid) < sx || (Abs(i - mid) == sx && Abs(j - mid) < sy)) ==>
      g[i][j] == Cell(gauss, mid, i, j, sigma)
  }

  /** One inner iteration writes the four cells at offsets `(+-sx, +-sy)`. */
  lemma FillStep(g: Grid, size: nat, mid: int, sx: nat, sy: nat, sigma: real, gauss: (int, real) -> real)
    requires IsSquare(g, size) && size == 2 * mid + 1 && sx <= mid && sy <= mid
    requires FilledUpTo(g, size, mid, sx, sy, sigma, gauss)
    ensures var h := PutMirrored(g, size, mid, sx, sy, gauss(Exponent(sx, sy), sigma));
            IsSquare(h, size) && FilledUpTo(h, size, mid, sx, sy + 1, sigma, gauss)
  {
    var v := gauss(Exponent(sx, sy), sigma);
    var h := PutMirrored(g, size, mid, sx, sy, v);
    forall i, j | 0 <= i < size && 0 <= j < size && (Abs(i - mid) < sx || (Abs(i - mid) == sx && Abs(j - mid) < sy + 1))
      ensures h[i][j] == Cell(gauss, mid, i, j, sigma)
    {
      if Abs(i - mid) == sx && Abs(j - mid) == sy {
        OffsetCell(gauss, mid, i, j, sx, sy, sigma);
      }
    }
  }

  /** A finished row of offsets starts the next one. */
  lemma FillRow(g: Grid, size: nat, mid: int, sx: nat, sigma: real, gauss: (int, real) -> real)
    requires IsSquare(g, size) && size == 2 * mid + 1
    requires FilledUpTo(g, size, mid, sx, mid + 1, sigma, gauss)
    ensures FilledUpTo(g, size, mid, sx + 1, 0, sigma, gauss)
  {
  }

  /** `generateGaussianFilter`: allocates the grid, rejects an even size,
      then fills the four quadrants from the centre outwards. */
  method GenerateGaussianFilter(size: int, sigma: real, gauss: (int, real) -> real) returns (r: Result<Grid, Error>)
    ensures size < 0 ==> r == Err(NegativeArraySize(size))
    ensures size >= 0 && size % 2 != 1 ==> r == Err(EvenFilterSize(size))
    ensures r.Ok? <==> size >= 0 && size % 2 == 1
    ensures r.Ok? ==> IsGaussianKernel(r.value, size, sigma, gauss)
  {
    if size < 0 {
      return Err(NegativeArraySize(size));
    }
    if size % 2 != 1 {
      return Err(EvenFilterSize(size));
    }
    var mid := (size - 1) / 2;
    var g: Grid := seq(size, _ => seq(size, _ => 0.0));
    var sx := 0;
    while sx <= mid
      invariant 0 <= sx <= mid + 1
      invariant IsSquare(g, size)
      invariant FilledUpTo(g, size, mid, sx, 0, sigma, gauss)
    {
      var sy := 0;
      while sy <= mid
        invariant 0 <= sy <= mid + 1
        invariant IsSquare(g, size)
        invariant FilledUpTo(g, size, mid, sx, sy, sigma, gauss)
      {
        var v := gauss(Exponent(sx, sy), sigma);
        FillStep(g, size, mid, sx, sy, sigma, gauss);
        g := PutMirrored(g, size, mid, sx, sy, v);
        sy := sy + 1;
      }
      FillRow(g, size, mid, sx, sigma, gauss);
      sx := sx + 1;
    }
    assert FilledUpTo(g, size, mid, mid + 1, 0, sigma, gauss);
    return Ok(g);
  }

  /** The rows of `g` in reverse order. */
  function FlipRows(g: Grid): (r: Grid)
    ensures |r| == |g| && forall i :: 0 <= i < |g| ==> r[i] == g[|g| - 1 - i]
  {
    seq(|g|, i requires 0 <= i < |g| => g[|g| - 1 - i])
  }

  /** Each row of `g` reversed. */
  function FlipColumns(g: Grid): (r: Grid)
    ensures |r| == |g|
    ensures forall i :: 0 <= i < |g| ==> |r[i]| == |g[i]| && forall j :: 0 <= j < |g[i]| ==> r[i][j] == g[i][|g[i]| - 1 - j]
  {
    seq(|g|, i requires 0 <= i < |g| => seq(|g[i]|, j requires 0 <= j < |g[i]| => g[i][|g[i]| - 1 - j]))
  }

  /** The transpose of a square grid. */
  function Transpose(g: Grid, size: nat): (r: Grid)
    requires IsSquare(g, size)
    ensures IsSquare(r, size)
    ensures forall i, j :: 0 <= i < size && 0 <= j < size ==> r[i][j] == g[j][i]
  {
    seq(size, i requires 0 <= i < size => seq(size, j requires 0 <= j < size => g[j][i]))
  }

  /** Two kernels of the same size and width are the same grid. */
  lemma KernelUnique(g: Grid, h: Grid, size: nat, sigma: real, gauss: (int, real) -> real)
    requires IsGaussianKernel(g, size, sigma, gauss) && IsGaussianKernel(h, size, sigma, gauss)
    ensures g == h
  {
    forall i | 0 <= i < size
      ensures g[i] == h[i]
    {
      assert forall j :: 0 <= j < size ==> g[i][j] == h[i][j];
    }
  }

  lemma MirroredCell(gauss: (int, real) -> real, size: int, mid: int, i: int, j: int, sigma: real)
    requires size == 2 * mid + 1
    ensures Cell(gauss, mid, size - 1 - i, j, sigma) == Cell(gauss, mid, i, j, sigma)
    ensures Cell(gauss, mid, i, size - 1 - j, sigma) == Cell(gauss, mid, i, j, sigma)
    ensures Cell(gauss, mid, j, i, sigma) == Cell(gauss, mid, i, j, sigma)
  {
    OffsetCell(gauss, mid, i, j, Abs(i - mid), Abs(j - mid), sigma);
    OffsetCell(gauss, mid, size - 1 - i, j, Abs(i - mid), Abs(j - mid), sigma);
    OffsetCell(gauss, mid, i, size - 1 - j, Abs(i - mid), Abs(j - mid), sigma);
    OffsetCell(gauss, mid, j, i, Abs(j - mid), Abs(i - mid), sigma);
    ExponentSwap(Abs(i - mid), Abs(j - mid));
  }

  /** The kernel is a function of the offset from the centre alone: flipping
      its rows, flipping its columns, rotating it by 180 degrees and
      transposing it each give the kernel back. */
  lemma KernelSymmetries(g: Grid, size: nat, sigma: real, gauss: (int, real) -> real)
    requires size % 2 == 1
    requires IsGaussianKernel(g, size, sigma, gauss)
    ensures FlipRows(g) == g
    ensures FlipColumns(g) == g
    ensures FlipRows(FlipColumns(g)) == g
    ensures Transpose(g, size) == g
  {
    var mid := (size - 1) / 2;
    forall i, j | 0 <= i < size && 0 <= j < size
      ensures Cell(gauss, mid, size - 1 - i, j, sigma) == Cell(gauss, mid, i, j, sigma)
      ensures Cell(gauss, mid, i, size - 1 - j, sigma) == Cell(gauss, mid, i, j, sigma)
      ensures Cell(gauss, mid, j, i, sigma) == Cell(gauss, mid, i, j, sigma)
    {
      MirroredCell(gauss, size, mid, i, j, sigma);
    }
    assert IsGaussianKernel(FlipRows(g), size, sigma, gauss);
    KernelUnique(FlipRows(g), g, size, sigma, gauss);
    assert IsGaussianKernel(FlipColumns(g), size, sigma, gauss);
    KernelUnique(FlipColumns(g), g, size, sigma, gauss);
    assert IsGaussianKernel(Transpose(g, size), size, sigma, gauss);
    KernelUnique(Transpose(g, size), g, size, sigma, gauss);
  }

  /** The centre cell holds the Gaussian at offset 0. */
  lemma KernelCentre(g: Grid, size: nat, sigma: real, gauss: (int, real) -> real)
    requires size % 2 == 1
    requires IsGaussianKernel(g, size, sigma, gauss)
    ensures g[(size - 1) / 2][(size - 1) / 2] == gauss(0, sigma)
  {
    var mid := (size - 1) / 2;
    assert 0 <= mid < size;
    assert g[mid][mid] == Cell(gauss, mid, mid, mid, sigma);
    assert Exponent(0, 0) == 0;
  }

  /** `m` is what `getMaximum` computes: the largest cell, or 0 when no cell
      is positive. */
  predicate IsMaxOrZero(m: real, g: Grid) {
    && m >= 0.0
    && (forall i, j :: 0 <= i < |g| && 0 <= j < |g[i]| ==> g[i][j] <= m)
    && (m == 0.0 || exists i, j :: 0 <= i < |g| && 0 <= j < |g[i]| && g[i][j] == m)
  }

  lemma MaxOrZeroUnique(a: real, b: real, g: Grid)
    requires IsMaxOrZero(a, g) && IsMaxOrZero(b, g)
    ensures a == b
  {
    if a != 0.0 {
      var i, j :| 0 <= i < |g| && 0 <= j < |g[i]| && g[i][j] == a;
      assert a <= b;
    }
    if b != 0.0 {
      var i, j :| 0 <= i < |g| && 0 <= j < |g[i]| && g[i][j] == b;
      assert b <= a;
    }
  }

  /** The inner loop of `getMaximum` over one row, from running maximum `acc`. */
  function RowMax(row: seq<real>, acc: real): (m: real)
    ensures m >= acc
    ensures forall k :: 0 <= k < |row| ==> row[k] <= m
    ensures m == acc || exists k :: 0 <= k < |row| && row[k] == m
  {
    if row == [] then acc
    else
      var rest := RowMax(row[1..], if row[0] > acc then row[0] else acc);
      assert forall k :: 1 <= k < |row| ==> row[k] == row[1..][k - 1];
      rest
  }

  /** The outer loop of `getMaximum`, row by row, from running maximum `acc`. */
  function GridMax(g: Grid, acc: real): (m: real)
    ensures m >= acc
    ensures forall i, j :: 0 <= i < |g| && 0 <= j < |g[i]| ==> g[i][j] <= m
    ensures m == acc || exists i, j :: 0 <= i < |g| && 0 <= j < |g[i]| && g[i][j] == m
  {
    if g == [] then acc
    else
      var acc' := RowMax(g[0], acc);
      var m := GridMax(g[1..], acc');
      assert forall i :: 1 <= i < |g| ==> g[i] == g[1..][i - 1];
      if m == acc' then m
      else
        var i, j :| 0 <= i < |g[1..]| && 0 <= j < |g[1..][i]| && g[1..][i][j] == m;
        assert g[i + 1][j] == m;
        m
  }

  /** `getMaximum`: a scan of every cell from a running maximum of 0. */
  function GetMaximum(g: Grid): (m: real)
    ensures IsMaxOrZero(m, g)
  {
    GridMax(g, 0.0)
  }

  /** Every row is as wide as the first. */
  predicate Rectangular(g: Grid) {
    |g| > 0 && forall i :: 0 <= i < |g| ==> |g[i]| == |g[0]|
  }

  /** `multiplyBy`: allocates a result with `grid.length` rows of
      `grid[0].length` cells and writes each cell times `factor`. An empty
      grid fails at `grid[0]`; a row longer than the first fails at the first
      column past the end of the result's row; cells past a shorter row stay 0. */
  function MultiplyBy(grid: Grid, factor: real): (r: Result<Grid, Error>)
    ensures r.Err? <==> |grid| == 0 || exists k :: 0 <= k < |grid| && |grid[k]| > |grid[0]|
    ensures |grid| == 0 ==> r == Err(IndexOutOfBounds(0, 0))
    ensures |grid| > 0 && r.Err? ==> r == Err(IndexOutOfBounds(|grid[0]|, |grid[0]|))
    ensures r.Ok? ==>
              && |r.value| == |grid|
              && (forall i :: 0 <= i < |grid| ==> |r.value[i]| == |grid[0]|)
              && (forall i, j :: 0 <= i < |grid| && 0 <= j < |grid[i]| ==> r.value[i][j] == grid[i][j] * factor)
              && (forall i, j :: 0 <= i < |grid| && |grid[i]| <= j < |grid[0]| ==> r.value[i][j] == 0.0)
  {
    if |grid| == 0 then Err(IndexOutOfBounds(0, 0))
    else
      var w := |grid[0]|;
      if exists k :: 0 <= k < |grid| && |grid[k]| > w then Err(IndexOutOfBounds(w, w))
      else Ok(seq(|grid|, i requires 0 <= i < |grid| => seq(w, j requires 0 <= j < w => if j < |grid[i]| then grid[i][j] * factor else 0.0)))
  }

  lemma ScaleLe(a: real, b: real, f: real)
    requires a <= b && f >= 0.0
    ensures a * f <= b * f
  {
  }

  /** Scaling by a non-negative factor keeps an upper bound, scaled. */
  lemma ScaledBound(g: Grid, factor: real, m: real)
    requires Rectangular(g) && factor >= 0.0 && IsMaxOrZero(m, g)
    ensures MultiplyBy(g, factor).Ok?
    ensures var s := MultiplyBy(g, factor).value;
            forall i, j :: 0 <= i < |s| && 0 <= j < |s[i]| ==> s[i][j] <= m * factor
  {
    var s := MultiplyBy(g, factor).value;
    forall i, j | 0 <= i < |s| && 0 <= j < |s[i]|
      ensures s[i][j] <= m * factor
    {
      assert j < |g[i]| && s[i][j] == g[i][j] * factor;
      ScaleLe(g[i][j], m, factor);
    }
  }

  /** A cell of the scaled grid is the cell times the factor. */
  lemma ScaledCell(g: Grid, factor: real, i: int, j: int, v: real)
    requires Rectangular(g) && 0 <= i < |g| && 0 <= j < |g[i]| && g[i][j] == v
    ensures MultiplyBy(g, factor).Ok? && j < |MultiplyBy(g, factor).value[i]|
    ensures MultiplyBy(g, factor).value[i][j] == v * factor
  {
  }

  /** Scaling by a non-negative factor scales a maximum. */
  lemma ScaledMaxOrZero(g: Grid, factor: real, m: real)
    requires Rectangular(g) && factor >= 0.0 && IsMaxOrZero(m, g)
    ensures MultiplyBy(g, factor).Ok?
    ensures IsMaxOrZero(m * factor, MultiplyBy(g, factor).value)
  {
    var s := MultiplyBy(g, factor).value;
    ScaledBound(g, factor, m);
    ScaleLe(0.0, m, factor);
    if m != 0.0 {
      var i, j :| 0 <= i < |g| && 0 <= j < |g[i]| && g[i][j] == m;
      ScaledCell(g, factor, i, j, m);
    }
  }

  /** `g` is the kernel of the given size and width with every cell times `f`. */
  predicate IsScaledKernel(g: Grid, size: nat, sigma: real, gauss: (int, real) -> real, f: real)
  {
    && IsSquare(g, size)
    && forall i, j :: 0 <= i < size && 0 <= j < size ==> g[i][j] == Cell(gauss, (size - 1) / 2, i, j, sigma) * f
  }

  /** Scaling a kernel gives the scaled kernel. */
  lemma ScaledKernel(g: Grid, size: nat, sigma: real, gauss: (int, real) -> real, f: real)
    requires size >= 1
    requires IsGaussianKernel(g, size, sigma, gauss)
    ensures MultiplyBy(g, f).Ok? && IsScaledKernel(MultiplyBy(g, f).value, size, sigma, gauss, f)
  {
  }

  /** `(2 * (int) fwhmDigital) + 1` in Java `int` arithmetic. It is always
      odd, so the odd-size check never fires from the constructor; for widths
      in `[0, 2^30)` it is `2 * floor + 1 >= 1`, and it is negative exactly
      when `2 * (int) fwhmDigital + 1` overflows upwards or `(int) fwhmDigital`
      is negative without overflowing. */
  function KernelSize(fwhmDigital: real): (size: int)
    ensures size % 2 == 1
    ensures 0.0 <= fwhmDigital < 0x4000_0000 as real ==> size == 2 * fwhmDigital.Floor + 1 >= 1
    ensures var c := JavaInt.CastToInt(fwhmDigital);
            size < 0 <==> c >= 0x4000_0000 || -0x4000_0000 <= c < 0
  {
    var c := JavaInt.CastToInt(fwhmDigital);
    JavaInt.WrapOnce(2 * c + 1);
    JavaInt.Wrap(2 * c + 1)
  }

  /** The inputs of the `Camera` constructor. */
  datatype CameraParams = CameraParams(
    resX: int, resY: int, acqSpeed: int, readoutNoise: real, darkCurrent: real,
    quantumEfficiency: real, gain: real, pixelSize: real, na: real,
    wavelength: real, magnification: real, radius: real)

  /** A constructed camera: its inputs and the values derived from them. */
  datatype Camera = Camera(
    params: CameraParams, thermalNoise: real, quantumGain: real,
    psf: Grid, psfDigital: Grid, fwhm: real, fwhmDigital: real)

  /** The constructor divides by these four inputs. */
  predicate Divisors(p: CameraParams) {
    p.acqSpeed != 0 && p.na != 0.0 && p.radius != 0.0 && p.pixelSize != 0.0
  }

  /** The full width at half maximum of the PSF in object space, and on the
      sensor in pixels, from the Airy radius `0.61 wavelength / NA`. */
  function Fwhm(p: CameraParams): (fwhm: real)
    requires Divisors(p)
    ensures fwhm * p.radius * p.na == AiryFactor * p.wavelength
  {
    var airy := AiryFactor * p.wavelength / p.na;
    DivMul(airy, p.radius);
    DivMul(AiryFactor * p.wavelength, p.na);
    airy / p.radius
  }

  function FwhmDigital(p: CameraParams): (fwhm: real)
    requires Divisors(p)
    ensures fwhm * p.pixelSize * p.na == AiryFactor * p.wavelength * p.magnification
  {
    var airy := AiryFactor * p.wavelength / p.na;
    DivMul(airy * p.magnification, p.pixelSize);
    DivMul(AiryFactor * p.wavelength, p.na);
    assert airy * p.magnification * p.na == airy * p.na * p.magnification;
    airy * p.magnification / p.pixelSize
  }

  /** The Gaussian widths of the two kernels. */
  function Sigma(p: CameraParams): (sigma: real)
    requires Divisors(p)
    ensures sigma * FwhmPerSigma == Fwhm(p)
  {
    DivMul(Fwhm(p), FwhmPerSigma);
    Fwhm(p) / FwhmPerSigma
  }

  function SigmaDigital(p: CameraParams): (sigma: real)
    requires Divisors(p)
    ensures sigma * FwhmPerSigma == FwhmDigital(p)
  {
    DivMul(FwhmDigital(p), FwhmPerSigma);
    FwhmDigital(p) / FwhmPerSigma
  }

  lemma DivMul(a: real, b: real)
    requires b != 0.0
    ensures a / b * b == a && b * (a / b) == a
  {
  }

  lemma DivPositive(a: real, b: real)
    requires a > 0.0 && b > 0.0
    ensures a / b > 0.0
  {
  }

  /** The kernel as a closed form. */
  function GaussianKernel(size: nat, sigma: real, gauss: (int, real) -> real): (g: Grid)
    ensures IsGaussianKernel(g, size, sigma, gauss)
  {
    seq(size, i requires 0 <= i < size => seq(size, j requires 0 <= j < size => Cell(gauss, (size - 1) / 2, i, j, sigma)))
  }

  /** What `generateGaussianFilter` returns or throws, in closed form. */
  function Filter(size: int, sigma: real, gauss: (int, real) -> real): Result<Grid, Error>
  {
    if size < 0 then Err(NegativeArraySize(size))
    else if size % 2 != 1 then Err(EvenFilterSize(size))
    else Ok(GaussianKernel(size, sigma, gauss))
  }

  /** The loop of `generateGaussianFilter` computes the closed form. */
  method GenerateGaussianFilterIsFilter(size: int, sigma: real, gauss: (int, real) -> real) returns (r: Result<Grid, Error>)
    ensures r == Filter(size, sigma, gauss)
  {
    r := GenerateGaussianFilter(size, sigma, gauss);
    if r.Ok? {
      KernelUnique(r.value, GaussianKernel(size, sigma, gauss), size, sigma, gauss);
    }
  }

  /** A kernel whose centre weight is 1 peaks at 1 or more. */
  lemma KernelPeak(size: nat, sigma: real, gauss: (int, real) -> real)
    requires size % 2 == 1 && gauss(0, sigma) == 1.0
    ensures GetMaximum(GaussianKernel(size, sigma, gauss)) >= 1.0
  {
    var g := GaussianKernel(size, sigma, gauss);
    var mid := (size - 1) / 2;
    KernelCentre(g, size, sigma, gauss);
    assert g[mid][mid] <= GetMaximum(g);
  }

  /** Rescaling a grid whose maximum is `b > 0` by `a / b`, for `a > 0`,
      gives a grid whose maximum is `a`. */
  lemma RatioRescales(g: Grid, a: real, b: real)
    requires Rectangular(g) && IsMaxOrZero(b, g) && a > 0.0 && b > 0.0
    ensures a / b > 0.0
    ensures MultiplyBy(g, a / b).Ok? && GetMaximum(MultiplyBy(g, a / b).value) == a
  {
    var f := a / b;
    DivPositive(a, b);
    DivMul(a, b);
    ScaledMaxOrZero(g, f, b);
    var s := MultiplyBy(g, f).value;
    assert b * f == a;
    assert IsMaxOrZero(a, s);
    MaxOrZeroUnique(GetMaximum(s), a, s);
  }

  /** The rescaling factor of the constructor,
      `getMaximum(psf_digital) / getMaximum(psf_temp)`. */
  function PeakFactor(size: nat, sigmaDigital: real, sigma: real, gauss: (int, real) -> real): real
    requires size % 2 == 1 && gauss(0, sigma) == 1.0
  {
    KernelPeak(size, sigma, gauss);
    GetMaximum(GaussianKernel(size, sigmaDigital, gauss)) / GetMaximum(GaussianKernel(size, sigma, gauss))
  }

  /** The last three statements of the constructor: the digital kernel, the
      object-space kernel of the same size, and the latter rescaled by the
      ratio of the two peaks. The size is odd, as `KernelSize` shows. */
  function Kernels(size: int, sigmaDigital: real, sigma: real, gauss: (int, real) -> real): (r: Result<(Grid, Grid), Error>)
    requires size % 2 == 1 && gauss(0, sigma) == 1.0
    ensures r.Err? <==> size < 0
    ensures r.Err? ==> r.error == NegativeArraySize(size)
  {
    match Filter(size, sigmaDigital, gauss)
    case Err(e) => Err(e)
    case Ok(psfDigital) =>
      match Filter(size, sigma, gauss)
      case Err(e) => Err(e)
      case Ok(psfTemp) =>
        KernelPeak(size, sigma, gauss);
        ScaledKernel(psfTemp, size, sigma, gauss, GetMaximum(psfDigital) / GetMaximum(psfTemp));
        match MultiplyBy(psfTemp, GetMaximum(psfDigital) / GetMaximum(psfTemp))
        case Err(e) => Err(e)
        case Ok(psf) => Ok((psfDigital, psf))
  }

  /** The digital kernel is the Gaussian of its width; the other is the
      Gaussian of its own width times the positive ratio of the two peaks, so
      that both kernels peak at the same value. */
  lemma KernelsShape(size: int, sigmaDigital: real, sigma: real, gauss: (int, real) -> real)
    requires size % 2 == 1 && gauss(0, sigma) == 1.0 && gauss(0, sigmaDigital) == 1.0
    ensures var r := Kernels(size, sigmaDigital, sigma, gauss);
            r.Ok? ==>
              && size >= 1
              && IsGaussianKernel(r.value.0, size, sigmaDigital, gauss)
              && var factor := PeakFactor(size, sigmaDigital, sigma, gauss);
                 && factor > 0.0
                 && IsScaledKernel(r.value.1, size, sigma, gauss, factor)
                 && GetMaximum(r.value.1) == GetMaximum(r.value.0)
  {
    if size >= 0 {
      var digital := GaussianKernel(size, sigmaDigital, gauss);
      var temp := GaussianKernel(size, sigma, gauss);
      KernelPeak(size, sigmaDigital, gauss);
      KernelPeak(size, sigma, gauss);
      var factor := PeakFactor(size, sigmaDigital, sigma, gauss);
      assert Kernels(size, sigmaDigital, sigma, gauss) == Ok((digital, MultiplyBy(temp, factor).value));
      RatioRescales(temp, GetMaximum(digital), GetMaximum(temp));
      ScaledKernel(temp, size, sigma, gauss, factor);
    }
  }

  /** The camera the constructor builds from its inputs and the two kernels. */
  function MakeCamera(p: CameraParams, psfDigital: Grid, psf: Grid): (c: Camera)
    requires Divisors(p)
    ensures c.params == p && c.psf == psf && c.psfDigital == psfDigital
    ensures c.thermalNoise * p.acqSpeed as real == p.darkCurrent
    ensures c.quantumGain == p.quantumEfficiency * p.gain
    ensures c.fwhm * p.radius * p.na == AiryFactor * p.wavelength
    ensures c.fwhmDigital * p.pixelSize * p.na == AiryFactor * p.wavelength * p.magnification
  {
    DivMul(p.darkCurrent, p.acqSpeed as real);
    Camera(p, p.darkCurrent / p.acqSpeed as real, p.quantumEfficiency * p.gain,
           psf, psfDigital, Fwhm(p), FwhmDigital(p))
  }

  /** The `Camera` constructor: the derived constants, then the kernels of
      size `(2 * (int) fwhmDigital) + 1`. `gauss(0, sigma)` is `exp(0)`,
      which is 1. */
  function NewCamera(p: CameraParams, gauss: (int, real) -> real): (r: Result<Camera, Error>)
    requires Divisors(p)
    requires gauss(0, SigmaDigital(p)) == 1.0 && gauss(0, Sigma(p)) == 1.0
    ensures r.Err? <==> KernelSize(FwhmDigital(p)) < 0
    ensures r.Err? ==> r.error == NegativeArraySize(KernelSize(FwhmDigital(p)))
    ensures r.Ok? ==> r.value == MakeCamera(p, r.value.psfDigital, r.value.psf)
  {
    var size := KernelSize(FwhmDigital(p));
    match Kernels(size, SigmaDigital(p), Sigma(p), gauss)
    case Err(e) => Err(e)
    case Ok((psfDigital, psf)) => Ok(MakeCamera(p, psfDigital, psf))
  }

  /** The constructed camera's kernels: both of the odd size
      `KernelSize(fwhmDigital)`, the digital one the Gaussian of width
      `fwhmDigital / 2.3548`, the other the Gaussian of width
      `fwhm / 2.3548` times a positive factor, with equal peaks. */
  lemma CameraKernels(p: CameraParams, gauss: (int, real) -> real)
    requires Divisors(p)
    requires gauss(0, SigmaDigital(p)) == 1.0 && gauss(0, Sigma(p)) == 1.0
    ensures var r := NewCamera(p, gauss);
            var size := KernelSize(FwhmDigital(p));
            r.Ok? ==>
              && size >= 1 && size % 2 == 1
              && IsGaussianKernel(r.value.psfDigital, size, SigmaDigital(p), gauss)
              && var factor := PeakFactor(size, SigmaDigital(p), Sigma(p), gauss);
                 && factor > 0.0
                 && IsScaledKernel(r.value.psf, size, Sigma(p), gauss, factor)
                 && GetMaximum(r.value.psf) == GetMaximum(r.value.psfDigital)
  {
    var size := KernelSize(FwhmDigital(p));
    KernelsShape(size, SigmaDigital(p), Sigma(p), gauss);
  }
}

=== FILE: image_j_simulator.dfy ===
/** `ImageJSimulator`: the closed-loop run. Each step generates one frame,
    feeds it to the analyzer, on every `refresh`-th step lets the controller
    turn the analyzer's batch output into a new control signal for the
    microscope, and records one history entry. The microscope, analyzer and
    controller are opaque collaborators, given as state-transition functions. */
module ImageJSimulator {
  import opened Results
  import JavaInt

  /** The time argument handed to the analyzer for every frame. */
  const TimePerFrame: int := 10

  const ColumnsComment: string := "#Columns:"
  const ColumnNames: string := "frame-id,true-signal,analyzer-output,controller-output,controller-setpoint"

  /** One history record. */
  datatype Entry = Entry(trueSignal: real, analyzerOutput: real, controllerOutput: real, controllerSetpoint: real)

  /** The collaborators: the microscope (state `S`), the analyzer (state `A`)
      and the controller (state `C`). Getters that may update the
      analyzer's internal batch return its new state with the value. */
  datatype Env<!S, !A, !C, !Img> = Env(
    nextImage: S -> Result<(S, Img), string>,     // fails with an image-shape message
    pixelSize: S -> real,
    trueSignal: (S, int) -> real,
    setControlSignal: (S, real) -> S,
    processImage: (A, Img, real, int) -> A,
    batchOutput: A -> (A, real),
    intermittentOutput: A -> (A, real),
    nextValue: (C, real) -> C,
    currentOutput: C -> real,
    setpoint: C -> real)

  /** The fields of an `ImageJSimulator` object. `imageCount` is a Java `int`. */
  datatype Sim<S, A, C> = Sim(source: S, analyzer: A, controller: C, imageCount: int, history: map<int, Entry>)

  /** What happens to the microscope during a run, in order: a frame is
      obtained at a step, or a control signal is sent at a step. */
  datatype Event = Frame(step: int) | Control(step: int, signal: real)

  /** How `execute` ends. A TIFF path makes `saveStack` call itself without
      end, so the run ends with a stack overflow after the CSV is written. */
  datatype Ending = Rejected | ImageFailed(message: string) | Returned | SaveStackOverflow

  /** A line of the CSV file; the four numbers of a data row are formatted
      as `%8.4e` in the file. */
  datatype CsvLine = Header(text: string) | Data(id: int, values: seq<real>)

  /** The result of `execute`: the object afterwards, the events, the
      microscope state each step's true signal was read from, the CSV lines
      written (if any) and how the call ended. */
  datatype Run<S, A, C> = Run(sim: Sim<S, A, C>, log: seq<Event>, sources: seq<S>, csv: Option<seq<CsvLine>>, ending: Ending)

  /** What the loop of `execute` leaves behind: the object, the events, the
      microscope state of each completed step, and the message of the frame
      that failed, if one did. */
  datatype Trace<S, A, C> = Trace(sim: Sim<S, A, C>, log: seq<Event>, sources: seq<S>, failure: Option<string>)

  /** The steps at which frames were obtained, in log order. */
  function FrameSteps(log: seq<Event>): seq<int>
  {
    if log == [] then []
    else
      var last := log[|log| - 1];
      FrameSteps(log[..|log| - 1]) + (if last.Frame? then [last.step] else [])
  }

  /** The steps at which control signals were sent, in log order. */
  function ControlSteps(log: seq<Event>): (steps: seq<int>)
    ensures |steps| + |FrameSteps(log)| == |log|  // every event is a frame or a control signal
  {
    if log == [] then []
    else
      var last := log[|log| - 1];
      ControlSteps(log[..|log| - 1]) + (if last.Control? then [last.step] else [])
  }

  lemma AppendEvent(log: seq<Event>, e: Event)
    ensures FrameSteps(log + [e]) == FrameSteps(log) + (if e.Frame? then [e.step] else [])
    ensures ControlSteps(log + [e]) == ControlSteps(log) + (if e.Control? then [e.step] else [])
  {
    assert (log + [e])[..|log|] == log;
  }

  /** The position of an event in time: step `i`'s frame comes before the
      control signal of step `i`, which comes before step `i + 1`'s frame. */
  function Key(e: Event): int {
    if e.Frame? then 2 * e.step else 2 * e.step + 1
  }

  predicate Ordered(log: seq<Event>) {
    forall a, b :: 0 <= a < b < |log| ==> Key(log[a]) < Key(log[b])
  }

  /** Causality: a control signal sent at some step precedes exactly the
      frames of later steps, so it can influence only those. */
  predicate Causal(log: seq<Event>) {
    forall p, q :: 0 <= p < |log| && 0 <= q < |log| && log[p].Control? && log[q].Frame? ==>
      (p < q <==> log[p].step < log[q].step)
  }

  lemma {:induction false} OrderedIsCausal(log: seq<Event>)
    requires Ordered(log)
    ensures Causal(log)
  {
    forall p, q | 0 <= p < |log| && 0 <= q < |log| && log[p].Control? && log[q].Frame?
      ensures p < q <==> log[p].step < log[q].step
    {
      if p < q {
        assert Key(log[p]) < Key(log[q]);
      } else if q < p {
        assert Key(log[q]) < Key(log[p]);
      }
    }
  }

  /** `1, 2, ..., n`. */
  function Steps(n: nat): (s: seq<int>)
    ensures |s| == n && forall k :: 0 <= k < n ==> s[k] == k + 1
  {
    seq(n, k => k + 1)
  }

  /** The multiples of `refresh` in `1..n`, ascending. */
  function Multiples(n: nat, refresh: nat): (s: seq<int>)
    requires refresh >= 1
    ensures |s| == n / refresh
    ensures forall k :: 0 <= k < |s| ==> s[k] == (k + 1) * refresh
  {
    seq(n / refresh, k => (k + 1) * refresh)
  }

  lemma {:induction false} MulGap(a: nat, b: nat, d: nat)
    requires a < b
    ensures a * d + d <= b * d
  {
    if a + 1 < b {
      MulGap(a, b - 1, d);
      assert (b - 1) * d + d == b * d;
    } else {
      assert (a + 1) * d == a * d + d;
    }
  }

  /** Euclidean division is determined by quotient and remainder. */
  lemma DivMod(n: nat, d: nat, q: nat, r: nat)
    requires d >= 1 && 0 <= r < d && n == q * d + r
    ensures n / d == q && n % d == r
  {
    var q', r' := n / d, n % d;
    assert n == q' * d + r' && 0 <= r' < d;
    if q' < q {
      MulGap(q', q, d);
      assert false;
    } else if q' > q {
      MulGap(q, q', d);
      assert false;
    }
  }

  /** Moving from `n - 1` to `n` adds `n` to the multiples exactly when
      `refresh` divides it. */
  lemma MultiplesStep(n: nat, refresh: nat)
    requires n >= 1 && refresh >= 1
    ensures n % refresh == 0 ==> Multiples(n, refresh) == Multiples(n - 1, refresh) + [n]
    ensures n % refresh != 0 ==> Multiples(n, refresh) == Multiples(n - 1, refresh)
  {
    var q, r := (n - 1) / refresh, (n - 1) % refresh;
    assert n - 1 == q * refresh + r && 0 <= r < refresh;
    if r == refresh - 1 {
      assert n == (q + 1) * refresh + 0;
      DivMod(n, refresh, q + 1, 0);
      assert Multiples(n, refresh)[q] == n;
    } else {
      DivMod(n, refresh, q, r + 1);
    }
  }

  /** Steps on which the controller is consulted. */
  predicate RefreshStep(k: int, refresh: int)
    requires refresh >= 1
  {
    k % refresh == 0
  }

  /** Among steps `1..n` the refresh steps are exactly the listed multiples
      of `refresh`. */
  lemma RefreshStepIffMultiple(n: nat, refresh: nat, k: int)
    requires refresh >= 1 && 1 <= k <= n
    ensures RefreshStep(k, refresh) <==> k in Multiples(n, refresh)
  {
    var m := Multiples(n, refresh);
    if RefreshStep(k, refresh) {
      var q := k / refresh;
      assert k == q * refresh;
      var nq, nr := n / refresh, n % refresh;
      assert n == nq * refresh + nr && nr < refresh;
      if q > nq {
        MulGap(nq, q, refresh);
        assert false;
      }
      assert m[q - 1] == k;
    } else if k in m {
      var idx :| 0 <= idx < |m| && m[idx] == k;
      DivMod(k, refresh, idx + 1, 0);
      assert false;
    }
  }

  /** Entry `k` shows the same controller output and setpoint as entry `k - 1`. */
  predicate ControllerHeld(h: map<int, Entry>, k: int) {
    k in h && k - 1 in h
    && h[k].controllerOutput == h[k - 1].controllerOutput
    && h[k].controllerSetpoint == h[k - 1].controllerSetpoint
  }

  /** The values a data row carries for one history entry. */
  function Values(e: Entry): seq<real> {
    [e.trueSignal, e.analyzerOutput, e.controllerOutput, e.controllerSetpoint]
  }

  /** Reads data rows back into history entries; rows without four values
      are skipped. */
  function ParseRows(rows: seq<CsvLine>): (h: map<int, Entry>)
    ensures forall id :: id in h ==> exists j :: 0 <= j < |rows| && rows[j] == Data(id, Values(h[id]))
  {
    if rows == [] then map[]
    else
      var init := ParseRows(rows[..|rows| - 1]);
      var last := rows[|rows| - 1];
      if last.Data? && |last.values| == 4 then
        init[last.id := Entry(last.values[0], last.values[1], last.values[2], last.values[3])]
      else init
  }

  /** The data row for frame `id`: the four values, or the id alone when the
      history has no entry for it (the `NullPointerException` branch). */
  function CsvRow(history: map<int, Entry>, id: int): (row: CsvLine)
    ensures row.Data? && row.id == id
    ensures ParseRows([row]) == if id in history then map[id := history[id]] else map[]
  {
    if id in history then Data(id, Values(history[id])) else Data(id, [])
  }

  /** How a call of `saveToCsv` ends: with the lines it wrote, or never.
      The loop counter is an `int`, so when `image_count` is the largest
      `int` the counter wraps round to the smallest one before it can exceed
      `image_count`, and the loop does not end. */
  datatype CsvWrite = Written(lines: seq<CsvLine>) | Endless

  /** `saveToCsv`: two header lines, then one data row per frame id
      `1..imageCount`, in order. */
  function SaveToCsv<S, A, C>(sim: Sim<S, A, C>): (w: CsvWrite)
    requires JavaInt.IsInt(sim.imageCount)
    ensures w.Endless? <==> sim.imageCount == JavaInt.IntMax
    ensures w.Written? ==>
              && |w.lines| == 2 + (if sim.imageCount < 1 then 0 else sim.imageCount)
              && w.lines[0] == Header(ColumnsComment) && w.lines[1] == Header(ColumnNames)
    ensures w.Written? ==> forall j :: 2 <= j < |w.lines| ==> w.lines[j].Data? && w.lines[j].id == j - 1
    ensures w.Written? ==> forall j :: 2 <= j < |w.lines| ==>
              (|w.lines[j].values| == 4 <==> j - 1 in sim.history) && (|w.lines[j].values| == 0 <==> j - 1 !in sim.history)
  {
    if sim.imageCount == JavaInt.IntMax then Endless
    else
      var n := if sim.imageCount < 1 then 0 else sim.imageCount;
      Written([Header(ColumnsComment), Header(ColumnNames)] + seq(n, k => CsvRow(sim.history, k + 1)))
  }

  /** The history restricted to ids `1..n`. */
  function HistoryUpTo(history: map<int, Entry>, n: int): map<int, Entry> {
    map id | id in history && 1 <= id <= n :: history[id]
  }

  lemma HistoryUpToStep(history: map<int, Entry>, n: int)
    requires n >= 1
    ensures n in history ==> HistoryUpTo(history, n) == HistoryUpTo(history, n - 1)[n := history[n]]
    ensures n !in history ==> HistoryUpTo(history, n) == HistoryUpTo(history, n - 1)
  {
  }

  /** Parsing the data rows `saveToCsv` writes for ids `1..n` gives back the
      history entries with those ids. */
  lemma {:induction false} ParseRowsUpTo(history: map<int, Entry>, n: nat)
    ensures ParseRows(seq(n, k => CsvRow(history, k + 1))) == HistoryUpTo(history, n)
  {
    var rows := seq(n, k => CsvRow(history, k + 1));
    if n > 0 {
      assert rows[..n - 1] == seq(n - 1, k => CsvRow(history, k + 1));
      ParseRowsUpTo(history, n - 1);
      HistoryUpToStep(history, n);
      var last := rows[n - 1];
      assert last == CsvRow(history, n);
      if n in history {
        var e := history[n];
        assert last == Data(n, Values(e));
        assert Entry(last.values[0], last.values[1], last.values[2], last.values[3]) == e;
      }
    }
  }

  /** Round trip: the data rows of a CSV file that was written give back
      exactly the history entries for ids `1..imageCount`. */
  lemma CsvRoundTrip<S, A, C>(sim: Sim<S, A, C>)
    requires JavaInt.IsInt(sim.imageCount)
    ensures SaveToCsv(sim).Written? ==>
              ParseRows(SaveToCsv(sim).lines[2..]) == HistoryUpTo(sim.history, sim.imageCount)
  {
    var n := if sim.imageCount < 1 then 0 else sim.imageCount;
    if SaveToCsv(sim).Written? {
      assert SaveToCsv(sim).lines[2..] == seq(n, k => CsvRow(sim.history, k + 1));
    }
    ParseRowsUpTo(sim.history, n);
    assert HistoryUpTo(sim.history, sim.imageCount) == HistoryUpTo(sim.history, n);
  }

  /** `incrementCounter`: `image_count++` on a Java `int`. */
  function IncrementCounter<S, A, C>(sim: Sim<S, A, C>): (r: Sim<S, A, C>)
    requires JavaInt.IsInt(sim.imageCount)
    ensures JavaInt.IsInt(r.imageCount)
    ensures sim.imageCount < JavaInt.IntMax ==> r.imageCount == sim.imageCount + 1
    ensures sim.imageCount == JavaInt.IntMax ==> r.imageCount == JavaInt.IntMin
    ensures r == sim.(imageCount := r.imageCount)
  {
    sim.(imageCount := JavaInt.Wrap(sim.imageCount + 1))
  }

  function GetImageCount<S, A, C>(sim: Sim<S, A, C>): int {
    sim.imageCount
  }

  function IncrementTimes<S, A, C>(sim: Sim<S, A, C>, k: nat): (r: Sim<S, A, C>)
    requires JavaInt.IsInt(sim.imageCount)
    ensures JavaInt.IsInt(r.imageCount)
  {
    if k == 0 then sim else IncrementCounter(IncrementTimes(sim, k - 1))
  }

  /** Images generated outside the run are counted one by one, up to the
      largest `int`. */
  lemma {:induction false} CountAfterIncrements<S, A, C>(sim: Sim<S, A, C>, k: nat)
    requires JavaInt.IsInt(sim.imageCount) && sim.imageCount + k <= JavaInt.IntMax
    ensures GetImageCount(IncrementTimes(sim, k)) == GetImageCount(sim) + k
    ensures IncrementTimes(sim, k) == sim.(imageCount := sim.imageCount + k)
  {
    if k > 0 {
      CountAfterIncrements(sim, k - 1);
    }
  }

  /** What one pass of the loop of `execute` at step `i = s.imageCount` does
      to the object: the counter advances, entry `i` is recorded from the
      microscope and controller as the step left them, a control signal
      (the controller's new output) is sent after the frame exactly on a
      refresh step, and otherwise the controller is left alone. */
  ghost predicate StepEffect<S, A, C, Img>(s: Sim<S, A, C>, env: Env<S, A, C, Img>, refresh: int,
                                           t: Sim<S, A, C>, events: seq<Event>)
    requires refresh >= 1
  {
    var i := s.imageCount;
    && t.imageCount == i + 1
    && i in t.history && t.history == s.history[i := t.history[i]]
    && t.history[i].trueSignal == env.trueSignal(t.source, i)
    && t.history[i].controllerOutput == env.currentOutput(t.controller)
    && t.history[i].controllerSetpoint == env.setpoint(t.controller)
    && events == [Frame(i)] + (if RefreshStep(i, refresh) then [Control(i, t.history[i].controllerOutput)] else [])
    && (!RefreshStep(i, refresh) ==> t.controller == s.controller)
  }

  /** One pass of the loop of `execute`: obtain a frame, hand it to the
      analyzer, on a refresh step let the controller compute a new signal
      and send it to the microscope, then record the entry for this step. */
  function Step<S, A, C, Img>(s: Sim<S, A, C>, env: Env<S, A, C, Img>, pixelSize: real, refresh: int)
    : (r: Result<(Sim<S, A, C>, seq<Event>), string>)
    requires refresh >= 1
    ensures r.Err? <==> env.nextImage(s.source).Err?
    ensures r.Ok? ==> StepEffect(s, env, refresh, r.value.0, r.value.1)
    ensures r.Ok? ==>
              var (src, img) := env.nextImage(s.source).value;
              var an := env.processImage(s.analyzer, img, pixelSize, TimePerFrame);
              var t := r.value.0;
              if RefreshStep(s.imageCount, refresh) then
                && t.controller == env.nextValue(s.controller, env.batchOutput(an).1)
                && t.source == env.setControlSignal(src, env.currentOutput(t.controller))
                && t.analyzer == env.intermittentOutput(env.batchOutput(an).0).0
                && t.history[s.imageCount].analyzerOutput == env.intermittentOutput(env.batchOutput(an).0).1
              else
                && t.source == src
                && t.analyzer == env.intermittentOutput(an).0
                && t.history[s.imageCount].analyzerOutput == env.intermittentOutput(an).1
  {
    match env.nextImage(s.source)
    case Err(msg) => Err(msg)
    case Ok((src0, img)) =>
      var i := s.imageCount;
      var an0 := env.processImage(s.analyzer, img, pixelSize, TimePerFrame);
      var (an1, ctrl, src, events) :=
        if RefreshStep(i, refresh) then
          var (an, batch) := env.batchOutput(an0);
          var c := env.nextValue(s.controller, batch);
          var signal := env.currentOutput(c);
          (an, c, env.setControlSignal(src0, signal), [Frame(i), Control(i, signal)])
        else (an0, s.controller, src0, [Frame(i)]);
      var (an2, out) := env.intermittentOutput(an1);
      var entry := Entry(env.trueSignal(src, i), out, env.currentOutput(ctrl), env.setpoint(ctrl));
      Ok((Sim(src, an2, ctrl, i + 1, s.history[i := entry]), events))
  }

  /** The events of steps `1..i - 1`: their frames in order, control
      signals exactly on the refresh steps, everything in time order. */
  predicate EventsSoFar(log: seq<Event>, refresh: int, i: int)
    requires refresh >= 1 && i >= 1
  {
    && FrameSteps(log) == Steps(i - 1)
    && ControlSteps(log) == Multiples(i - 1, refresh)
    && Ordered(log)
    && (forall a :: 0 <= a < |log| ==> Key(log[a]) < 2 * i && 1 <= log[a].step)
  }

  /** The history after steps `1..i - 1`: it gained exactly those steps'
      entries, each with the true signal of the microscope state the step
      left behind, and kept every other entry. */
  ghost predicate HistorySoFar<S, A, C, Img>(sim: Sim<S, A, C>, env: Env<S, A, C, Img>,
                                             h: map<int, Entry>, sources: seq<S>, i: int)
  {
    && |sources| == i - 1
    && (forall k :: k in h <==> k in sim.history || 1 <= k < i)
    && (forall k :: k in sim.history && !(1 <= k < i) ==> h[k] == sim.history[k])
    && (forall k :: 1 <= k < i ==> h[k].trueSignal == env.trueSignal(sources[k - 1], k))
  }

  /** The controller after steps `1..i - 1`: each control signal sent is
      the output recorded for its step, each entry of a step that did not
      refresh repeats the controller values of the step before (of the
      initial controller for step 1), and the controller now shows what
      the last entry recorded. */
  ghost predicate ControllerSoFar<S, A, C, Img>(sim: Sim<S, A, C>, env: Env<S, A, C, Img>, refresh: int,
                                                s: Sim<S, A, C>, log: seq<Event>)
    requires refresh >= 1
  {
    var i := s.imageCount;
    && (forall a :: 0 <= a < |log| && log[a].Control? ==>
          log[a].step < i && log[a].step in s.history && s.history[log[a].step].controllerOutput == log[a].signal)
    && (forall k :: 2 <= k < i && !RefreshStep(k, refresh) ==> ControllerHeld(s.history, k))
    && (i >= 2 && !RefreshStep(1, refresh) ==>
          1 in s.history
          && s.history[1].controllerOutput == env.currentOutput(sim.controller)
          && s.history[1].controllerSetpoint == env.setpoint(sim.controller))
    && (i == 1 ==> s.controller == sim.controller)
    && (i >= 2 ==>
          i - 1 in s.history
          && env.currentOutput(s.controller) == s.history[i - 1].controllerOutput
          && env.setpoint(s.controller) == s.history[i - 1].controllerSetpoint)
  }

  /** What holds after steps `1..imageCount - 1` of a run started from `sim`. */
  ghost predicate RunSoFar<S, A, C, Img>(sim: Sim<S, A, C>, env: Env<S, A, C, Img>, refresh: int,
                                         s: Sim<S, A, C>, log: seq<Event>, sources: seq<S>)
    requires refresh >= 1
  {
    && 1 <= s.imageCount
    && EventsSoFar(log, refresh, s.imageCount)
    && HistorySoFar(sim, env, s.history, sources, s.imageCount)
    && ControllerSoFar(sim, env, refresh, s, log)
  }

  lemma OrderedAppend(log: seq<Event>, events: seq<Event>, i: int)
    requires Ordered(log) && (forall a :: 0 <= a < |log| ==> Key(log[a]) < 2 * i && 1 <= log[a].step)
    requires i >= 1
    requires events == [Frame(i)] || (|events| == 2 && events[0] == Frame(i) && events[1].Control? && events[1].step == i)
    ensures Ordered(log + events)
    ensures forall a :: 0 <= a < |log + events| ==> Key((log + events)[a]) < 2 * (i + 1) && 1 <= (log + events)[a].step
  {
  }

  lemma StepKeepsEvents(log: seq<Event>, refresh: int, i: int, events: seq<Event>, signal: real)
    requires refresh >= 1 && i >= 1
    requires EventsSoFar(log, refresh, i)
    requires events == [Frame(i)] + (if RefreshStep(i, refresh) then [Control(i, signal)] else [])
    ensures EventsSoFar(log + events, refresh, i + 1)
  {
    OrderedAppend(log, events, i);
    StepCounts(log, refresh, i, events, signal);
  }

  /** Step `i` adds its frame, and its control signal when it refreshes. */
  lemma StepCounts(log: seq<Event>, refresh: int, i: int, events: seq<Event>, signal: real)
    requires refresh >= 1 && i >= 1
    requires FrameSteps(log) == Steps(i - 1) && ControlSteps(log) == Multiples(i - 1, refresh)
    requires events == [Frame(i)] + (if RefreshStep(i, refresh) then [Control(i, signal)] else [])
    ensures FrameSteps(log + events) == Steps(i)
    ensures ControlSteps(log + events) == Multiples(i, refresh)
  {
    MultiplesStep(i, refresh);
    AppendEvent(log, Frame(i));
    assert Steps(i - 1) + [i] == Steps(i) by {
      var a := Steps(i - 1) + [i];
      forall k | 0 <= k < i - 1
        ensures a[k] == k + 1
      {
        assert a[k] == Steps(i - 1)[k];
      }
    }
    if RefreshStep(i, refresh) {
      AppendEvent(log + [Frame(i)], Control(i, signal));
      assert log + events == log + [Frame(i)] + [Control(i, signal)];
    }
  }

  lemma StepKeepsHistory<S, A, C, Img>(sim: Sim<S, A, C>, env: Env<S, A, C, Img>,
                                       h: map<int, Entry>, sources: seq<S>, i: int, src: S, e: Entry)
    requires HistorySoFar(sim, env, h, sources, i)
    requires e.trueSignal == env.trueSignal(src, i)
    ensures HistorySoFar(sim, env, h[i := e], sources + [src], i + 1)
  {
    var sources', h' := sources + [src], h[i := e];
    forall k | 1 <= k < i + 1
      ensures h'[k].trueSignal == env.trueSignal(sources'[k - 1], k)
    {
      if k < i {
        assert sources'[k - 1] == sources[k - 1];
      }
    }
  }

  lemma StepKeepsController<S, A, C, Img>(sim: Sim<S, A, C>, env: Env<S, A, C, Img>, refresh: int,
                                          s: Sim<S, A, C>, log: seq<Event>, t: Sim<S, A, C>, events: seq<Event>)
    requires refresh >= 1 && s.imageCount >= 1
    requires ControllerSoFar(sim, env, refresh, s, log)
    requires StepEffect(s, env, refresh, t, events)
    ensures ControllerSoFar(sim, env, refresh, t, log + events)
  {
    var i := s.imageCount;
    var log' := log + events;
    forall a | 0 <= a < |log'| && log'[a].Control?
      ensures log'[a].step < i + 1 && log'[a].step in t.history && t.history[log'[a].step].controllerOutput == log'[a].signal
    {
      if a < |log| {
        assert log'[a] == log[a];
      }
    }
    forall k | 2 <= k < i + 1 && !RefreshStep(k, refresh)
      ensures ControllerHeld(t.history, k)
    {
      if k < i {
        assert ControllerHeld(s.history, k);
      }
    }
  }

  lemma StepKeepsRunSoFar<S, A, C, Img>(sim: Sim<S, A, C>, env: Env<S, A, C, Img>, refresh: int,
                                        s: Sim<S, A, C>, log: seq<Event>, sources: seq<S>,
                                        t: Sim<S, A, C>, events: seq<Event>)
    requires refresh >= 1
    requires RunSoFar(sim, env, refresh, s, log, sources)
    requires StepEffect(s, env, refresh, t, events)
    ensures RunSoFar(sim, env, refresh, t, log + events, sources + [t.source])
  {
    var i := s.imageCount;
    StepKeepsEvents(log, refresh, i, events, t.history[i].controllerOutput);
    StepKeepsHistory(sim, env, s.history, sources, i, t.source, t.history[i]);
    StepKeepsController(sim, env, refresh, s, log, t, events);
  }

  /** The loop of `execute` from step `s.imageCount` on, as a fold of
      `Step`: each step starts from the state the one before left, the loop
      ends after step `noImages`, and the first frame the microscope fails
      to produce ends it with that message and the state it failed in. */
  function RunFrom<S, A, C, Img>(s: Sim<S, A, C>, env: Env<S, A, C, Img>, pixelSize: real,
                                 noImages: int, refresh: int): (r: Trace<S, A, C>)
    requires refresh >= 1
    ensures r.sim.imageCount == s.imageCount + |r.sources|
    ensures |r.sources| == 0 ==> r.sim == s
    ensures |r.sources| > 0 ==> r.sources[|r.sources| - 1] == r.sim.source
    ensures r.failure.None? ==> r.sim.imageCount > noImages
    ensures r.failure.None? && s.imageCount <= noImages + 1 ==> r.sim.imageCount == noImages + 1
    ensures r.failure.Some? ==>
              s.imageCount <= r.sim.imageCount <= noImages && env.nextImage(r.sim.source) == Err(r.failure.value)
    decreases noImages + 1 - s.imageCount
  {
    if s.imageCount > noImages then Trace(s, [], [], None)
    else
      match Step(s, env, pixelSize, refresh)
      case Err(msg) => Trace(s, [], [], Some(msg))
      case Ok((t, events)) =>
        var rest := RunFrom(t, env, pixelSize, noImages, refresh);
        Trace(rest.sim, events + rest.log, [t.source] + rest.sources, rest.failure)
  }

  /** The whole loop of `execute`: from step 1, with the pixel size read
      once before it. */
  function Loop<S, A, C, Img>(sim: Sim<S, A, C>, env: Env<S, A, C, Img>, noImages: int, refresh: int): Trace<S, A, C>
    requires refresh >= 1
  {
    RunFrom(sim.(imageCount := 1), env, env.pixelSize(sim.source), noImages, refresh)
  }

  /** `whole` is the events and sources logged so far followed by the
      rest of the loop from state `s`. */
  ghost predicate Continues<S, A, C, Img>(whole: Trace<S, A, C>, s: Sim<S, A, C>, env: Env<S, A, C, Img>,
                                          pixelSize: real, noImages: int, refresh: int,
                                          log: seq<Event>, sources: seq<S>)
    requires refresh >= 1
  {
    var rest := RunFrom(s, env, pixelSize, noImages, refresh);
    whole == Trace(rest.sim, log + rest.log, sources + rest.sources, rest.failure)
  }

  /** A successful step moves its events and source from the rest of the
      loop to what was logged. */
  lemma ContinuesStep<S, A, C, Img>(whole: Trace<S, A, C>, s: Sim<S, A, C>, env: Env<S, A, C, Img>,
                                    pixelSize: real, noImages: int, refresh: int,
                                    log: seq<Event>, sources: seq<S>, t: Sim<S, A, C>, events: seq<Event>)
    requires refresh >= 1 && s.imageCount <= noImages
    requires Step(s, env, pixelSize, refresh) == Ok((t, events))
    requires Continues(whole, s, env, pixelSize, noImages, refresh, log, sources)
    ensures Continues(whole, t, env, pixelSize, noImages, refresh, log + events, sources + [t.source])
  {
    var rest := RunFrom(t, env, pixelSize, noImages, refresh);
    assert RunFrom(s, env, pixelSize, noImages, refresh).log == events + rest.log;
    assert log + (events + rest.log) == (log + events) + rest.log;
    assert sources + ([t.source] + rest.sources) == (sources + [t.source]) + rest.sources;
  }

  /** Where the loop stops, what was logged is the whole run. */
  lemma ContinuesEnd<S, A, C, Img>(whole: Trace<S, A, C>, s: Sim<S, A, C>, env: Env<S, A, C, Img>,
                                   pixelSize: real, noImages: int, refresh: int,
                                   log: seq<Event>, sources: seq<S>, failure: Option<string>)
    requires refresh >= 1
    requires Continues(whole, s, env, pixelSize, noImages, refresh, log, sources)
    requires || (s.imageCount > noImages && failure.None?)
             || (s.imageCount <= noImages && Step(s, env, pixelSize, refresh).Err?
                 && failure == Some(Step(s, env, pixelSize, refresh).error))
    ensures whole == Trace(s, log, sources, failure)
  {
    assert log + [] == log && sources + [] == sources;
  }

  /** `execute`. Rejects a non-positive image count or refresh rate before
      doing anything; otherwise runs steps `1..noImages`. A failing
      `getNextImage` propagates, keeping the entries of the earlier steps. */
  method Execute<S, A, C, Img>(sim: Sim<S, A, C>, env: Env<S, A, C, Img>, noImages: int, refresh: int,
                               saveCsv: bool, saveTiff: bool)
    returns (r: Run<S, A, C>)
    requires JavaInt.IsInt(noImages) && JavaInt.IsInt(refresh)
    requires noImages < JavaInt.IntMax
    ensures r.ending.Rejected? <==> noImages < 1 || refresh < 1
    ensures r.ending.Rejected? ==> r.sim == sim && r.log == [] && r.csv.None?
    ensures !r.ending.Rejected? ==>
              var n := |r.sources|;
              && refresh >= 1
              && FrameSteps(r.log) == Steps(n)
              && ControlSteps(r.log) == Multiples(n, refresh)
              && Ordered(r.log)
              && (forall k :: k in r.sim.history <==> k in sim.history || 1 <= k <= n)
              && (forall k :: k in sim.history && !(1 <= k <= n) ==> r.sim.history[k] == sim.history[k])
              && (forall k :: 1 <= k <= n ==> r.sim.history[k].trueSignal == env.trueSignal(r.sources[k - 1], k))
              && (forall a :: 0 <= a < |r.log| && r.log[a].Control? ==>
                    r.log[a].step in r.sim.history && r.sim.history[r.log[a].step].controllerOutput == r.log[a].signal)
              && (forall k :: 2 <= k <= n && !RefreshStep(k, refresh) ==> ControllerHeld(r.sim.history, k))
              && (n >= 1 && !RefreshStep(1, refresh) ==>
                    r.sim.history[1].controllerOutput == env.currentOutput(sim.controller)
                    && r.sim.history[1].controllerSetpoint == env.setpoint(sim.controller))
    ensures r.ending.ImageFailed? ==> |r.sources| < noImages && r.sim.imageCount == |r.sources| + 1 && r.csv.None?
    ensures r.ending.ImageFailed? ==> env.nextImage(r.sim.source) == Err(r.ending.message)
    ensures !r.ending.Rejected? ==>
              var t := Loop(sim, env, noImages, refresh);
              && r.log == t.log && r.sources == t.sources
              && (r.ending.ImageFailed? <==> t.failure.Some?)
              && (r.ending.ImageFailed? ==> r.sim == t.sim && t.failure == Some(r.ending.message))
              && (!r.ending.ImageFailed? ==> r.sim == t.sim.(imageCount := noImages))
    ensures r.ending.Returned? || r.ending.SaveStackOverflow? ==>
              && |r.sources| == noImages && r.sim.imageCount == noImages
              && (r.csv.Some? <==> saveCsv)
              && (r.csv.Some? ==> SaveToCsv(r.sim) == Written(r.csv.value))
              && (r.ending.SaveStackOverflow? <==> saveTiff)
  {
    if noImages < 1 || refresh < 1 {
      return Run(sim, [], [], None, Rejected);
    }
    var s, log, sources, failure := Generate(sim, env, noImages, refresh);
    var n := s.imageCount - 1;
    RunEvents(log, refresh, n);
    RunHistory(sim, env, s.history, sources, n);
    RunController(sim, env, refresh, s, log, n);
    if failure.Some? {
      return Run(s, log, sources, None, ImageFailed(failure.value));
    }
    s := s.(imageCount := s.imageCount - 1);
    var csv := if saveCsv then Some(SaveToCsv(s).lines) else None;
    var ending := if saveTiff then SaveStackOverflow else Returned;
    return Run(s, log, sources, csv, ending);
  }

  /** The events of a run that got past validation, read off the loop
      invariant: `n` frames in step order, and a control signal after the
      frame of every `refresh`-th step. */
  lemma RunEvents(log: seq<Event>, refresh: int, n: int)
    requires refresh >= 1 && n >= 0
    requires EventsSoFar(log, refresh, n + 1)
    ensures FrameSteps(log) == Steps(n)
    ensures ControlSteps(log) == Multiples(n, refresh)
    ensures Ordered(log)
  {
  }

  /** The history of a run that got past validation: steps `1..n` added,
      each with the true signal of the state it left behind, the rest kept. */
  lemma RunHistory<S, A, C, Img>(sim: Sim<S, A, C>, env: Env<S, A, C, Img>,
                                 h: map<int, Entry>, sources: seq<S>, n: int)
    requires HistorySoFar(sim, env, h, sources, n + 1)
    ensures n == |sources|
    ensures forall k :: k in h <==> k in sim.history || 1 <= k <= n
    ensures forall k :: k in sim.history && !(1 <= k <= n) ==> h[k] == sim.history[k]
    ensures forall k :: 1 <= k <= n ==> h[k].trueSignal == env.trueSignal(sources[k - 1], k)
  {
  }

  /** The controller values a run that got past validation recorded: each
      signal sent is the output of its step's entry, and a step that did not
      refresh repeats the previous values (the initial controller's for
      step 1). */
  lemma RunController<S, A, C, Img>(sim: Sim<S, A, C>, env: Env<S, A, C, Img>, refresh: int,
                                    s: Sim<S, A, C>, log: seq<Event>, n: int)
    requires refresh >= 1 && n == s.imageCount - 1
    requires ControllerSoFar(sim, env, refresh, s, log)
    ensures forall a :: 0 <= a < |log| && log[a].Control? ==>
              log[a].step in s.history && s.history[log[a].step].controllerOutput == log[a].signal
    ensures forall k :: 2 <= k <= n && !RefreshStep(k, refresh) ==> ControllerHeld(s.history, k)
    ensures n >= 1 && !RefreshStep(1, refresh) ==>
              s.history[1].controllerOutput == env.currentOutput(sim.controller)
              && s.history[1].controllerSetpoint == env.setpoint(sim.controller)
  {
  }

  /** The loop of `execute`: frames `1..noImages` in order, each followed
      by a control step on every `refresh`-th frame; the first image the
      microscope fails to produce ends the loop with its message. */
  method Generate<S, A, C, Img>(sim: Sim<S, A, C>, env: Env<S, A, C, Img>, noImages: int, refresh: int)
    returns (s: Sim<S, A, C>, log: seq<Event>, sources: seq<S>, failure: Option<string>)
    requires 1 <= noImages < JavaInt.IntMax && refresh >= 1
    ensures RunSoFar(sim, env, refresh, s, log, sources)
    ensures Loop(sim, env, noImages, refresh) == Trace(s, log, sources, failure)
    ensures failure.None? ==> s.imageCount == noImages + 1
    ensures failure.Some? ==> s.imageCount <= noImages && env.nextImage(s.source) == Err(failure.value)
  {
    var pixelSize := env.pixelSize(sim.source);
    ghost var whole := Loop(sim, env, noImages, refresh);
    s := sim.(imageCount := 1);
    log := [];
    sources := [];
    while s.imageCount <= noImages
      invariant s.imageCount <= noImages + 1
      invariant RunSoFar(sim, env, refresh, s, log, sources)
      invariant Continues(whole, s, env, pixelSize, noImages, refresh, log, sources)
      decreases noImages + 1 - s.imageCount
    {
      match Step(s, env, pixelSize, refresh)
      case Err(msg) =>
        ContinuesEnd(whole, s, env, pixelSize, noImages, refresh, log, sources, Some(msg));
        return s, log, sources, Some(msg);
      case Ok((t, events)) =>
        StepKeepsRunSoFar(sim, env, refresh, s, log, sources, t, events);
        ContinuesStep(whole, s, env, pixelSize, noImages, refresh, log, sources, t, events);
        s, log, sources := t, log + events, sources + [t.source];
    }
    failure := None;
    ContinuesEnd(whole, s, env, pixelSize, noImages, refresh, log, sources, failure);
  }

  /** A completed run has sent exactly `noImages / refresh` control
      signals, each after the frame of its own step and before every later
      frame, and its CSV file reads back to the entries of steps
      `1..noImages`, all complete. */
  lemma CompletedRun<S, A, C>(sim: Sim<S, A, C>, r: Run<S, A, C>, noImages: int, refresh: int)
    requires refresh >= 1 && 1 <= noImages < JavaInt.IntMax
    requires |r.sources| == noImages && r.sim.imageCount == noImages
    requires ControlSteps(r.log) == Multiples(noImages, refresh) && Ordered(r.log)
    requires forall k :: 1 <= k <= noImages ==> k in r.sim.history
    ensures |ControlSteps(r.log)| == noImages / refresh
    ensures Causal(r.log)
    ensures SaveToCsv(r.sim).Written?
    ensures forall id :: 1 <= id <= noImages ==> id in ParseRows(SaveToCsv(r.sim).lines[2..])
    ensures forall j :: 2 <= j < |SaveToCsv(r.sim).lines| ==> |SaveToCsv(r.sim).lines[j].values| == 4
  {
    OrderedIsCausal(r.log);
    CsvRoundTrip(r.sim);
    var lines := SaveToCsv(r.sim).lines;
    forall id | 1 <= id <= noImages
      ensures id in ParseRows(lines[2..])
    {
      assert id in r.sim.history;
    }
    forall j | 2 <= j < |lines|
      ensures |lines[j].values| == 4
    {
      assert j - 1 in r.sim.history;
    }
  }
}

=== FILE: java_int.dfy ===
/** The parts of Java's 32-bit `int` semantics that the simulator relies on. */
module JavaInt {

  const IntMin: int := -0x8000_0000
  const IntMax: int := 0x7fff_ffff
  const Modulus: int := 0x1_0000_0000

  predicate IsInt(v: int) {
    IntMin <= v <= IntMax
  }

  /** Two's-complement wrap-around of Java `int` addition and multiplication. */
  function Wrap(v: int): (r: int)
    ensures IsInt(r)
    ensures (v - r) % Modulus == 0
    ensures IsInt(v) ==> r == v
  {
    (v - IntMin) % Modulus + IntMin
  }

  /** A result at most one modulus outside the range wraps exactly once. */
  lemma WrapOnce(v: int)
    ensures IntMax < v <= IntMax + Modulus ==> Wrap(v) == v - Modulus
    ensures IntMin - Modulus <= v < IntMin ==> Wrap(v) == v + Modulus
  {
  }

  /** Java `n / 2` on `int`: the quotient is truncated toward zero, so the
      remainder has the sign of `n`. */
  function Half(n: int): (h: int)
    ensures -1 <= n - 2 * h <= 1
    ensures n >= 0 ==> 0 <= n - 2 * h
    ensures n <= 0 ==> n - 2 * h <= 0
  {
    if n >= 0 then n / 2 else -((-n) / 2)
  }

  /** Java `(int) x` for a finite double: truncation toward zero, saturating
      at the ends of the `int` range. */
  function CastToInt(x: real): (r: int)
    ensures IsInt(r)
    ensures 0.0 <= x < IntMax as real ==> 0 <= r && r as real <= x < r as real + 1.0
    ensures IntMin as real < x <= 0.0 ==> r <= 0 && r as real - 1.0 < x <= r as real
    ensures x >= IntMax as real ==> r == IntMax
    ensures x <= IntMin as real ==> r == IntMin
  {
    if x >= IntMax as real then IntMax
    else if x <= IntMin as real then IntMin
    else if x >= 0.0 then x.Floor
    else -((-x).Floor)
  }
}

=== FILE: results.dfy ===
/** Failure-carrying values used to model the Java exceptions of the simulator. */
module Results {

  /** A value that may be absent, e.g. a `null` reference or an unset table cell. */
  datatype Option<+T> = None | Some(value: T)

  /** The value of a computation, or the exception that ended it. */
  datatype Result<+T, +E> = Ok(value: T) | Err(error: E)

  /** The completion of a `void` Java method: normal return, or the exception it threw. */
  datatype Outcome<+E> = Pass | Fail(error: E)
}

=== FILE: sorting.dfy ===
/** `java.util.Arrays.sort` on a `double[]` of finite values, and the sum
    that the spot counter takes over the sorted array. */
module Sorting {

  /** Ascending order. */
  predicate Sorted(s: seq<real>) {
    forall i, j :: 0 <= i < j < |s| ==> s[i] <= s[j]
  }

  /** `s` holds the values of `d` in ascending order. */
  predicate IsSortingOf(s: seq<real>, d: seq<real>) {
    |s| == |d| && Sorted(s) && multiset(s) == multiset(d)
  }

  /** Left-to-right sum; over `real` the order of summation does not matter. */
  function Sum(s: seq<real>): real {
    if |s| == 0 then 0.0 else s[0] + Sum(s[1..])
  }

  /** The least element of an ascending sequence is its head. */
  lemma HeadIsLeast(s: seq<real>, v: real)
    requires Sorted(s) && v in multiset(s)
    ensures s[0] <= v
  {
    var k :| 0 <= k < |s| && s[k] == v;
  }

  /** Putting `h` in front of `t` keeps ascending order when `h` is a lower
      bound of `t`. */
  lemma ConsSorted(h: real, t: seq<real>)
    requires Sorted(t)
    requires forall k :: 0 <= k < |t| ==> h <= t[k]
    ensures Sorted([h] + t)
  {
    forall i, j | 0 <= i < j < |t| + 1
      ensures ([h] + t)[i] <= ([h] + t)[j]
    {
      if i > 0 {
        assert ([h] + t)[i] == t[i - 1] && ([h] + t)[j] == t[j - 1];
      } else {
        assert ([h] + t)[j] == t[j - 1];
      }
    }
  }

  lemma SumCons(h: real, t: seq<real>)
    ensures Sum([h] + t) == h + Sum(t)
  {
    assert ([h] + t)[1..] == t;
  }

  /** The step case of `Insert`: `x` goes after the head `s[0]`. */
  lemma InsertAfterHead(x: real, s: seq<real>, t: seq<real>)
    requires Sorted(s) && |s| > 0 && s[0] < x
    requires Sorted(t) && multiset(t) == multiset(s[1..]) + multiset{x} && Sum(t) == x + Sum(s[1..])
    ensures Sorted([s[0]] + t)
    ensures multiset([s[0]] + t) == multiset(s) + multiset{x}
    ensures Sum([s[0]] + t) == x + Sum(s)
  {
    assert s == [s[0]] + s[1..];
    forall k | 0 <= k < |t|
      ensures s[0] <= t[k]
    {
      assert t[k] in multiset(t);
      if t[k] != x {
        assert t[k] in multiset(s);
        HeadIsLeast(s, t[k]);
      }
    }
    ConsSorted(s[0], t);
    SumCons(s[0], t);
  }

  /** Inserts `x` into an ascending sequence. */
  function Insert(x: real, s: seq<real>): (r: seq<real>)
    requires Sorted(s)
    ensures Sorted(r)
    ensures multiset(r) == multiset(s) + multiset{x}
    ensures Sum(r) == x + Sum(s)
  {
    if |s| == 0 then [x]
    else if x <= s[0] then
      ConsSorted(x, s);
      SumCons(x, s);
      [x] + s
    else
      var t := Insert(x, s[1..]);
      InsertAfterHead(x, s, t);
      [s[0]] + t
  }

  /** The ascending permutation of `s`. Java uses a different algorithm, but
      `SortedPermutationUnique` shows that every sort yields this sequence. */
  function Sort(s: seq<real>): (r: seq<real>)
    ensures Sorted(r)
    ensures multiset(r) == multiset(s)
    ensures |r| == |s|
    ensures Sum(r) == Sum(s)
  {
    if |s| == 0 then []
    else
      assert s == [s[0]] + s[1..];
      Insert(s[0], Sort(s[1..]))
  }

  lemma MultisetTail(s: seq<real>)
    requires |s| > 0
    ensures multiset(s[1..]) == multiset(s) - multiset{s[0]}
  {
    assert s == [s[0]] + s[1..];
  }

  lemma SortedTail(s: seq<real>)
    requires Sorted(s) && |s| > 0
    ensures Sorted(s[1..])
  {
    forall i, j | 0 <= i < j < |s| - 1
      ensures s[1..][i] <= s[1..][j]
    {
      assert s[1..][i] == s[i + 1] && s[1..][j] == s[j + 1];
    }
  }

  lemma HeadAndTail(a: seq<real>, b: seq<real>)
    requires |a| == |b| > 0 && a[0] == b[0] && a[1..] == b[1..]
    ensures a == b
  {
    assert a == [a[0]] + a[1..] && b == [b[0]] + b[1..];
  }

  /** Two ascending arrangements of the same values have the same length and
      the same head. */
  lemma SameHead(a: seq<real>, b: seq<real>)
    requires Sorted(a) && Sorted(b) && multiset(a) == multiset(b)
    ensures |a| == |b|
    ensures |a| > 0 ==> a[0] == b[0]
  {
    assert |a| == |multiset(a)| == |multiset(b)| == |b|;
    if |a| > 0 {
      assert a[0] in multiset(a) && b[0] in multiset(b);
      HeadIsLeast(a, b[0]);
      HeadIsLeast(b, a[0]);
    }
  }

  /** Two ascending arrangements of the same values are the same sequence. */
  lemma {:induction false} SortedPermutationUnique(a: seq<real>, b: seq<real>)
    requires Sorted(a) && Sorted(b)
    requires multiset(a) == multiset(b)
    ensures a == b
    decreases |a|
  {
    SameHead(a, b);
    if |a| > 0 {
      MultisetTail(a);
      MultisetTail(b);
      SortedTail(a);
      SortedTail(b);
      SortedPermutationUnique(a[1..], b[1..]);
      HeadAndTail(a, b);
    }
  }
}

=== FILE: spot_counter.dfy ===
/** `SpotCounter`: the evaluation algorithm that runs a `SpotCounterCore`
    over every frame of an image stack and keeps one list per statistic,
    read back per frame with 1-based frame numbers. */
module SpotCounter {
  import opened Results
  import JavaInt
  import Core = SpotCounterCore

  /** The exceptions the wrapper lets escape. */
  datatype Error =
    | FrameStatsFailed(cause: Core.Error)            // thrown by `getFrameStats` for fewer than two spots
    | StackNotSet                                    // `processStack` before `setImageStack`: null stack
    | OutputIndexOutOfBounds(index: int, size: int)  // `ArrayList.get` in `getOutputValues`
    | ParameterMissing(key: string)                  // unboxing the null of a missing map key

  const NoiseToleranceKey: string := "noise-tolerance"
  const BoxSizeKey: string := "box-size"
  const DefaultNoiseTolerance: int := 100
  const DefaultBoxSize: int := 5

  const SpotCountKey: string := "spot-count"
  const MinDistKey: string := "min-dist"
  const MeanDistKey: string := "mean-dist"
  const P10DistKey: string := "p10-dist"

  /** The fields of a `SpotCounter` object. */
  datatype Counter<Img> = Counter(
    stack: Option<seq<Img>>,
    spotCounts: seq<real>,
    minDists: seq<real>,
    meanDists: seq<real>,
    p10Dists: seq<real>,
    core: Core.Core,
    noiseTolerance: int,
    boxSize: int,
    parameters: map<string, int>)

  /** The four result lists describe the same frames. */
  predicate Aligned<Img>(c: Counter<Img>) {
    |c.minDists| == |c.spotCounts| && |c.meanDists| == |c.spotCounts| && |c.p10Dists| == |c.spotCounts|
  }

  /** `init`: empty result lists and a new core built from the current parameters. */
  function Init<Img>(c: Counter<Img>): (r: Counter<Img>)
    ensures Aligned(r) && |r.spotCounts| == 0
    ensures Core.Rows(r.core) == [] && r.core.table.None?
    ensures r.core.config == Core.Config(c.noiseTolerance, c.boxSize)
    ensures r.stack == c.stack && r.parameters == c.parameters
    ensures r.noiseTolerance == c.noiseTolerance && r.boxSize == c.boxSize
  {
    c.(spotCounts := [], minDists := [], meanDists := [], p10Dists := [],
       core := Core.NewCore(c.noiseTolerance, c.boxSize))
  }

  /** The `SpotCounter()` constructor. */
  function New<Img>(): (c: Counter<Img>)
    ensures Aligned(c) && |c.spotCounts| == 0 && c.stack.None?
    ensures c.parameters.Keys == {NoiseToleranceKey, BoxSizeKey}
    ensures c.parameters[NoiseToleranceKey] == c.noiseTolerance == c.core.config.noiseTolerance
    ensures c.parameters[BoxSizeKey] == c.boxSize == c.core.config.boxSize
    ensures Core.Rows(c.core) == []
    ensures c.noiseTolerance == DefaultNoiseTolerance && c.boxSize == DefaultBoxSize
  {
    var parameters := map[NoiseToleranceKey := DefaultNoiseTolerance, BoxSizeKey := DefaultBoxSize];
    Init(Counter(None, [], [], [], [], Core.NewCore(0, 0), DefaultNoiseTolerance, DefaultBoxSize, parameters))
  }

  function SetImageStack<Img>(c: Counter<Img>, stack: seq<Img>): Counter<Img> {
    c.(stack := Some(stack))
  }

  /** The outcome of `processStack` and of `setCustomParameters`: the new
      object state, and whether the call returned or threw. */
  datatype Update<Img> = Update(counter: Counter<Img>, outcome: Outcome<Error>)

  /** What an unset cell of a `ResultsTable` column reads as. A distance
      column exists once any row set it, and the current frame's row always
      sets it before it is read, so a row whose statistics failed (left by an
      earlier call) reads as this value rather than throwing. */
  const EmptyCell: real := 0.0

  /** What `processStack` reads back for one frame: the "n" cell and the
      three distance cells of one table row. */
  datatype Reading = Reading(n: real, stats: Core.FrameStats)

  /** The loop of `processStack` from some frame on: the core afterwards,
      the readings appended to the lists, in order, and whether the loop
      ended normally. */
  datatype Scan = Scan(core: Core.Core, readings: seq<Reading>, outcome: Outcome<Error>)

  /** The loop of `processStack` from frame number `i` (1-based) on. Frame
      `i` is analyzed, then row `i - 1` of the table the core returns is
      read: that is the current frame's row only while the table held no
      rows from earlier calls. */
  function ScanFrom<Img>(core: Core.Core, frames: seq<Img>, i: nat, det: Core.Detector<Img>): (s: Scan)
    requires 1 <= i <= |frames| + 1
    requires |Core.Rows(core)| >= i - 1
    ensures s.core.config == core.config
    ensures s.outcome.Pass? ==>
              |s.readings| == |frames| - i + 1 && |Core.Rows(s.core)| == |Core.Rows(core)| + |s.readings|
    ensures s.outcome.Fail? ==>
              |s.readings| < |frames| - i + 1 && |Core.Rows(s.core)| == |Core.Rows(core)| + |s.readings| + 1
    ensures s.outcome.Fail? ==> s.outcome.error.FrameStatsFailed?
    ensures s.outcome.Fail? && s.readings == [] ==>
              && i <= |frames|
              && var m := |Core.Maxima(core.config, frames[i - 1], det)|;
                 m < 2 && s.outcome.error == FrameStatsFailed(Core.ArrayIndexOutOfBounds(m, m))
    decreases |frames| + 1 - i
  {
    if i > |frames| then Scan(core, [], Pass)
    else
      var a := Core.Analyze(core, frames[i - 1], det);
      match a.result
      case Err(e) => Scan(a.core, [], Fail(FrameStatsFailed(e)))
      case Ok(table) =>
        var row := table[i - 1];
        var stats := if row.stats.Some? then row.stats.value else Core.FrameStats(EmptyCell, EmptyCell, EmptyCell);
        var rest := ScanFrom(a.core, frames, i + 1, det);
        Scan(rest.core, [Reading(row.n as real, stats)] + rest.readings, rest.outcome)
  }

  /** Without `init` between two calls the table keeps its rows, so the
      first frame of the second call reads the first call's row 0, and a
      row whose statistics had failed reads as empty cells. */
  lemma StaleRowRead<Img>(core: Core.Core, frames: seq<Img>, det: Core.Detector<Img>)
    requires |frames| >= 1 && |Core.Rows(core)| >= 1
    requires |Core.Maxima(core.config, frames[0], det)| >= 2
    ensures var s := ScanFrom(core, frames, 1, det);
            var stale := Core.Rows(core)[0];
            && |s.readings| >= 1
            && s.readings[0].n == stale.n as real
            && s.readings[0].stats == (if stale.stats.Some? then stale.stats.value
                                       else Core.FrameStats(EmptyCell, EmptyCell, EmptyCell))
  {
    var a := Core.Analyze(core, frames[0], det);
    assert a.result.value[0] == Core.Rows(a.core)[..|Core.Rows(core)|][0];
  }

  /** Appends the readings to the four lists, one value per list per reading. */
  function AppendReadings<Img>(c: Counter<Img>, rs: seq<Reading>): (r: Counter<Img>)
    ensures Aligned(c) ==> Aligned(r)
    ensures c.spotCounts <= r.spotCounts && c.minDists <= r.minDists
    ensures c.meanDists <= r.meanDists && c.p10Dists <= r.p10Dists
    ensures |r.spotCounts| == |c.spotCounts| + |rs| && |r.minDists| == |c.minDists| + |rs|
    ensures |r.meanDists| == |c.meanDists| + |rs| && |r.p10Dists| == |c.p10Dists| + |rs|
    ensures forall j :: 0 <= j < |rs| ==>
              && r.spotCounts[|c.spotCounts| + j] == rs[j].n
              && r.minDists[|c.minDists| + j] == rs[j].stats.minDistance
              && r.meanDists[|c.meanDists| + j] == rs[j].stats.meanDistance
              && r.p10Dists[|c.p10Dists| + j] == rs[j].stats.p10Distance
    ensures r == c.(spotCounts := r.spotCounts, minDists := r.minDists, meanDists := r.meanDists, p10Dists := r.p10Dists)
  {
    c.(spotCounts := c.spotCounts + seq(|rs|, j requires 0 <= j < |rs| => rs[j].n),
       minDists := c.minDists + seq(|rs|, j requires 0 <= j < |rs| => rs[j].stats.minDistance),
       meanDists := c.meanDists + seq(|rs|, j requires 0 <= j < |rs| => rs[j].stats.meanDistance),
       p10Dists := c.p10Dists + seq(|rs|, j requires 0 <= j < |rs| => rs[j].stats.p10Distance))
  }

  /** `processStack`: analyzes frames 1..size in order and appends each
      frame's count and distances to the four lists; a frame whose
      analysis throws ends the loop, keeping the values of earlier frames. */
  function ProcessStack<Img>(c: Counter<Img>, det: Core.Detector<Img>): (p: Update<Img>)
    ensures c.stack.None? ==> p == Update(c, Fail(StackNotSet))
    ensures Aligned(c) ==> Aligned(p.counter)
    ensures c.spotCounts <= p.counter.spotCounts && c.minDists <= p.counter.minDists
    ensures c.meanDists <= p.counter.meanDists && c.p10Dists <= p.counter.p10Dists
    ensures p.counter.core.config == c.core.config && p.counter.stack == c.stack
    ensures p.counter.parameters == c.parameters
    ensures p.counter.noiseTolerance == c.noiseTolerance && p.counter.boxSize == c.boxSize
    ensures c.stack.Some? ==>
              (p.outcome.Pass? <==> |p.counter.spotCounts| == |c.spotCounts| + |c.stack.value|)
  {
    match c.stack
    case None => Update(c, Fail(StackNotSet))
    case Some(frames) =>
      var s := ScanFrom(c.core, frames, 1, det);
      Update(AppendReadings(c.(core := s.core), s.readings), s.outcome)
  }

  /** The values one frame contributes: its number of maxima and its statistics. */
  ghost predicate ReadsFrame<Img>(r: Reading, config: Core.Config, img: Img, det: Core.Detector<Img>) {
    r.n == |Core.Maxima(config, img, det)| as real && Core.StatsOf(config, img, det) == Ok(r.stats)
  }

  /** The readings `rs` are the contributions of `frames[off]`,
      `frames[off + 1]`, ... in order: reading `k` is frame `off + k`'s. */
  ghost predicate ReadsFrames<Img>(rs: seq<Reading>, config: Core.Config, frames: seq<Img>, off: nat, det: Core.Detector<Img>) {
    && off + |rs| <= |frames|
    && forall k :: 0 <= k < |rs| ==> ReadsFrame(rs[k], config, frames[off + k], det)
  }

  lemma ReadsFramesCons<Img>(r: Reading, rs: seq<Reading>, config: Core.Config, frames: seq<Img>, off: nat, det: Core.Detector<Img>)
    requires off < |frames| && ReadsFrame(r, config, frames[off], det)
    requires ReadsFrames(rs, config, frames, off + 1, det)
    ensures ReadsFrames([r] + rs, config, frames, off, det)
  {
    var all := [r] + rs;
    forall k | 0 <= k < |all|
      ensures ReadsFrame(all[k], config, frames[off + k], det)
    {
      if k > 0 {
        assert all[k] == rs[k - 1] && off + k == off + 1 + (k - 1);
      }
    }
  }

  /** One step of the loop when the table holds exactly the rows of the
      frames already processed: the row read back is the current frame's. */
  lemma ScanStep<Img>(core: Core.Core, frames: seq<Img>, i: nat, det: Core.Detector<Img>) returns (next: Core.Core)
    requires 1 <= i <= |frames|
    requires |Core.Rows(core)| == i - 1
    ensures |Core.Rows(next)| == i && next.config == core.config
    ensures var s := ScanFrom(core, frames, i, det);
            && (|Core.Maxima(core.config, frames[i - 1], det)| < 2 ==>
                  s.readings == [] && s.outcome.Fail? && s.outcome.error.FrameStatsFailed?)
            && (|Core.Maxima(core.config, frames[i - 1], det)| >= 2 ==>
                  var rest := ScanFrom(next, frames, i + 1, det);
                  && s.readings == [s.readings[0]] + rest.readings
                  && ReadsFrame(s.readings[0], core.config, frames[i - 1], det)
                  && s.outcome == rest.outcome)
  {
    var a := Core.Analyze(core, frames[i - 1], det);
    assert Core.Rows(a.core)[i - 1] == Core.Rows(a.core)[|Core.Rows(core)|];
    next := a.core;
  }

  /** Every frame from position `from` on has at least two maxima. */
  ghost predicate AllHavePairs<Img>(config: Core.Config, frames: seq<Img>, from: nat, det: Core.Detector<Img>) {
    forall k :: from <= k < |frames| ==> |Core.Maxima(config, frames[k], det)| >= 2
  }

  /** When the table held exactly the rows of the frames already processed
      in this call, every row read back is the current frame's own row: the
      readings are the contributions of frames `i`, `i + 1`, ... in order. */
  lemma {:induction false} ScanReadsOwnRows<Img>(core: Core.Core, frames: seq<Img>, i: nat, det: Core.Detector<Img>)
    requires 1 <= i <= |frames| + 1
    requires |Core.Rows(core)| == i - 1
    ensures ReadsFrames(ScanFrom(core, frames, i, det).readings, core.config, frames, i - 1, det)
    decreases |frames| + 1 - i
  {
    if i <= |frames| {
      var s := ScanFrom(core, frames, i, det);
      var next := ScanStep(core, frames, i, det);
      if |Core.Maxima(core.config, frames[i - 1], det)| >= 2 {
        ScanReadsOwnRows(next, frames, i + 1, det);
        ReadsFramesCons(s.readings[0], ScanFrom(next, frames, i + 1, det).readings, core.config, frames, i - 1, det);
      }
    }
  }

  /** Under the same condition the loop runs to the end exactly when every
      remaining frame has at least two maxima. */
  lemma {:induction false} ScanPassesIffAllHavePairs<Img>(core: Core.Core, frames: seq<Img>, i: nat, det: Core.Detector<Img>)
    requires 1 <= i <= |frames| + 1
    requires |Core.Rows(core)| == i - 1
    ensures ScanFrom(core, frames, i, det).outcome.Pass? <==> AllHavePairs(core.config, frames, i - 1, det)
    decreases |frames| + 1 - i
  {
    if i <= |frames| {
      var next := ScanStep(core, frames, i, det);
      assert AllHavePairs(core.config, frames, i - 1, det) <==>
             |Core.Maxima(core.config, frames[i - 1], det)| >= 2 && AllHavePairs(core.config, frames, i, det);
      if |Core.Maxima(core.config, frames[i - 1], det)| >= 2 {
        ScanPassesIffAllHavePairs(next, frames, i + 1, det);
      }
    }
  }

  /** A failed scan from list position `off` stopped with the exception
      `getFrameStats` throws, at a frame with fewer than two maxima: the one
      after the frames it read. */
  ghost predicate StopsAtShortFrame<Img>(s: Scan, config: Core.Config, frames: seq<Img>, off: nat, det: Core.Detector<Img>) {
    s.outcome.Fail? ==>
      && s.outcome.error.FrameStatsFailed?
      && off + |s.readings| < |frames|
      && |Core.Maxima(config, frames[off + |s.readings|], det)| < 2
      && var m := |Core.Maxima(config, frames[off + |s.readings|], det)|;
         s.outcome.error.cause == Core.ArrayIndexOutOfBounds(m, m)
  }

  lemma StopsAtShortFrameCons<Img>(s: Scan, rest: Scan, config: Core.Config, frames: seq<Img>, off: nat, det: Core.Detector<Img>)
    requires |s.readings| == |rest.readings| + 1 && s.outcome == rest.outcome
    requires StopsAtShortFrame(rest, config, frames, off + 1, det)
    ensures StopsAtShortFrame(s, config, frames, off, det)
  {
    if s.outcome.Fail? {
      assert off + |s.readings| == off + 1 + |rest.readings|;
    }
  }

  /** Otherwise it stops with the exception `getFrameStats` throws, at the
      first frame that has fewer than two maxima. */
  lemma {:induction false} ScanFailsAtFirstShortFrame<Img>(core: Core.Core, frames: seq<Img>, i: nat, det: Core.Detector<Img>)
    requires 1 <= i <= |frames| + 1
    requires |Core.Rows(core)| == i - 1
    ensures StopsAtShortFrame(ScanFrom(core, frames, i, det), core.config, frames, i - 1, det)
    decreases |frames| + 1 - i
  {
    if i <= |frames| {
      var s := ScanFrom(core, frames, i, det);
      var next := ScanStep(core, frames, i, det);
      if |Core.Maxima(core.config, frames[i - 1], det)| >= 2 {
        ScanFailsAtFirstShortFrame(next, frames, i + 1, det);
        StopsAtShortFrameCons(s, ScanFrom(next, frames, i + 1, det), core.config, frames, i - 1, det);
      } else {
        assert frames[i - 1 + |s.readings|] == frames[i - 1];
      }
    }
  }







  /** List position `pos` of `c` holds what frame `img` contributes. */
  ghost predicate RecordsFrame<Img>(c: Counter<Img>, pos: int, config: Core.Config, img: Img, det: Core.Detector<Img>) {
    && 0 <= pos < |c.spotCounts| && pos < |c.minDists| && pos < |c.meanDists| && pos < |c.p10Dists|
    && c.spotCounts[pos] == |Core.Maxima(config, img, det)| as real
    && Core.StatsOf(config, img, det) == Ok(Core.FrameStats(c.minDists[pos], c.meanDists[pos], c.p10Dists[pos]))
  }

  /** Appending the contributions of `frames[0]`, `frames[1]`, ... to empty
      lists records frame `k` at position `k`. */
  lemma RecordsReadings<Img>(c: Counter<Img>, rs: seq<Reading>, config: Core.Config, frames: seq<Img>, det: Core.Detector<Img>)
    requires Aligned(c) && |c.spotCounts| == 0 && |rs| <= |frames|
    requires ReadsFrames(rs, config, frames, 0, det)
    ensures forall k :: 0 <= k < |rs| ==> RecordsFrame(AppendReadings(c, rs), k, config, frames[k], det)
  {
    var r := AppendReadings(c, rs);
    forall k | 0 <= k < |rs|
      ensures RecordsFrame(r, k, config, frames[k], det)
    {
      assert frames[0 + k] == frames[k];
      assert r.spotCounts[k] == rs[k].n && r.minDists[k] == rs[k].stats.minDistance;
      assert r.meanDists[k] == rs[k].stats.meanDistance && r.p10Dists[k] == rs[k].stats.p10Distance;
    }
  }

  /** On an object whose core has not analyzed anything yet (as after
      `init`), `processStack` succeeds exactly when every frame has at least
      two maxima, and list position `k` then holds frame `k + 1`'s values. */
  lemma ProcessStackFresh<Img>(c: Counter<Img>, det: Core.Detector<Img>)
    requires Aligned(c) && |c.spotCounts| == 0 && Core.Rows(c.core) == []
    requires c.stack.Some?
    ensures var p := ProcessStack(c, det);
            var frames := c.stack.value;
            && (p.outcome.Pass? <==> AllHavePairs(c.core.config, frames, 0, det))
            && (p.outcome.Pass? ==> forall k :: 0 <= k < |frames| ==> RecordsFrame(p.counter, k, c.core.config, frames[k], det))
  {
    var frames := c.stack.value;
    var s := ScanFrom(c.core, frames, 1, det);
    ScanReadsOwnRows(c.core, frames, 1, det);
    ScanPassesIffAllHavePairs(c.core, frames, 1, det);
    if s.outcome.Pass? {
      RecordsReadings(c.(core := s.core), s.readings, c.core.config, frames, det);
    }
  }

  /** `getOutputValues`: the four statistics of frame `imageNo` (1-based),
      under their keys in insertion order. */
  function GetOutputValues<Img>(c: Counter<Img>, imageNo: int): (r: Result<seq<(string, real)>, Error>)
    requires JavaInt.IsInt(imageNo)
    requires |c.spotCounts| <= JavaInt.IntMax  // an ArrayList holds at most Integer.MAX_VALUE elements
    ensures Aligned(c) ==> (r.Ok? <==> 1 <= imageNo <= |c.spotCounts|)
    ensures r.Ok? ==>
              && 1 <= imageNo <= |c.spotCounts| && imageNo <= |c.minDists|
              && imageNo <= |c.meanDists| && imageNo <= |c.p10Dists|
              && |r.value| == 4
              && r.value[0] == (SpotCountKey, c.spotCounts[imageNo - 1])
              && r.value[1] == (MinDistKey, c.minDists[imageNo - 1])
              && r.value[2] == (MeanDistKey, c.meanDists[imageNo - 1])
              && r.value[3] == (P10DistKey, c.p10Dists[imageNo - 1])
  {
    var k := JavaInt.Wrap(imageNo - 1);
    if !(0 <= k < |c.spotCounts|) then Err(OutputIndexOutOfBounds(k, |c.spotCounts|))
    else if k >= |c.minDists| then Err(OutputIndexOutOfBounds(k, |c.minDists|))
    else if k >= |c.meanDists| then Err(OutputIndexOutOfBounds(k, |c.meanDists|))
    else if k >= |c.p10Dists| then Err(OutputIndexOutOfBounds(k, |c.p10Dists|))
    else
      Ok([(SpotCountKey, c.spotCounts[k]), (MinDistKey, c.minDists[k]),
          (MeanDistKey, c.meanDists[k]), (P10DistKey, c.p10Dists[k])])
  }

  /** `setCustomParameters`: reads the two parameters, then rebuilds the
      object with empty lists and a new core. A missing key throws when its
      value is unboxed, after the assignments made before it. */
  function SetCustomParameters<Img>(c: Counter<Img>, m: map<string, int>): (u: Update<Img>)
    ensures u.outcome.Pass? <==> NoiseToleranceKey in m && BoxSizeKey in m
    ensures NoiseToleranceKey !in m ==> u == Update(c, Fail(ParameterMissing(NoiseToleranceKey)))
    ensures NoiseToleranceKey in m && BoxSizeKey !in m ==>
              u == Update(c.(noiseTolerance := m[NoiseToleranceKey]), Fail(ParameterMissing(BoxSizeKey)))
    ensures u.outcome.Pass? ==>
              && Aligned(u.counter) && |u.counter.spotCounts| == 0
              && u.counter.parameters == m && u.counter.stack == c.stack
              && u.counter.noiseTolerance == u.counter.core.config.noiseTolerance == m[NoiseToleranceKey]
              && u.counter.boxSize == u.counter.core.config.boxSize == m[BoxSizeKey]
              && Core.Rows(u.counter.core) == []
  {
    if NoiseToleranceKey !in m then Update(c, Fail(ParameterMissing(NoiseToleranceKey)))
    else
      var c1 := c.(noiseTolerance := m[NoiseToleranceKey]);
      if BoxSizeKey !in m then Update(c1, Fail(ParameterMissing(BoxSizeKey)))
      else Update(Init(c1.(boxSize := m[BoxSizeKey], parameters := m)), Pass)
  }

  /** `getOutputValues` for image number `pos + 1` reports what the frame
      recorded at list position `pos` contributed. */
  lemma OutputOfRecordedFrame<Img>(c: Counter<Img>, pos: int, config: Core.Config, img: Img, det: Core.Detector<Img>, st: Core.FrameStats)
    requires |c.spotCounts| <= JavaInt.IntMax
    requires RecordsFrame(c, pos, config, img, det)
    requires Core.StatsOf(config, img, det) == Ok(st)
    ensures GetOutputValues(c, pos + 1) ==
            Ok([(SpotCountKey, |Core.Maxima(config, img, det)| as real), (MinDistKey, st.minDistance),
                (MeanDistKey, st.meanDistance), (P10DistKey, st.p10Distance)])
  {
  }

  /** A frame with exactly two maxima at squared separation `sep2` has
      min = mean = p10 = the separation. */
  lemma TwoSpotFrame<Img>(config: Core.Config, img: Img, det: Core.Detector<Img>, sep2: nat)
    requires sep2 as real < Core.NoNeighbour
    requires var pts := Core.Maxima(config, img, det);
             |pts| == 2 && Core.Dist2(pts[0], pts[1]) == sep2
    ensures var v := det.sqrt(sep2 as real);
            Core.StatsOf(config, img, det) == Ok(Core.FrameStats(v, v, v))
  {
    var pts := Core.Maxima(config, img, det);
    Core.OverlayDistanceIsPixelDistance(pts, config.boxSize, 0, 1);
    Core.TwoSpots(Core.SpotOverlay(pts, config.boxSize), det.sqrt);
  }

  /** A configured counter run over a stack in which every frame has two
      maxima at squared separation `sep2`: every frame reports two spots
      and min = mean = p10 = the separation. With tolerance 90, box size 5,
      ten frames and a separation of 20 pixels this is the run of a static
      two-spot source. */
  lemma TwoSpotStack<Img>(frames: seq<Img>, det: Core.Detector<Img>, tolerance: int, boxSize: int, sep2: nat)
    requires sep2 as real < Core.NoNeighbour
    requires |frames| <= JavaInt.IntMax
    requires forall k :: 0 <= k < |frames| ==>
               var pts := det.findMax(frames[k], boxSize, tolerance);
               |pts| == 2 && Core.Dist2(pts[0], pts[1]) == sep2
    ensures var c := SetCustomParameters(New(), map[NoiseToleranceKey := tolerance, BoxSizeKey := boxSize]).counter;
            var p := ProcessStack(SetImageStack(c, frames), det);
            var v := det.sqrt(sep2 as real);
            && p.outcome.Pass?
            && forall k :: 1 <= k <= |frames| ==>
                 GetOutputValues(p.counter, k) == Ok([(SpotCountKey, 2.0), (MinDistKey, v), (MeanDistKey, v), (P10DistKey, v)])
  {
    var c := SetCustomParameters(New(), map[NoiseToleranceKey := tolerance, BoxSizeKey := boxSize]).counter;
    var c1 := SetImageStack(c, frames);
    var config := c1.core.config;
    assert config == Core.Config(tolerance, boxSize);
    ProcessStackFresh(c1, det);
    var p := ProcessStack(c1, det);
    assert AllHavePairs(config, frames, 0, det);
    TwoSpotRecorded(p.counter, frames, config, det, sep2);
  }

  /** Lists that record frames with two maxima at squared separation
      `sep2` each read back as count 2 and min = mean = p10 = the
      separation for every frame number. */
  lemma TwoSpotRecorded<Img>(c: Counter<Img>, frames: seq<Img>, config: Core.Config, det: Core.Detector<Img>, sep2: nat)
    requires |c.spotCounts| == |frames| <= JavaInt.IntMax
    requires forall k :: 0 <= k < |frames| ==> RecordsFrame(c, k, config, frames[k], det)
    requires sep2 as real < Core.NoNeighbour
    requires forall k :: 0 <= k < |frames| ==>
               var pts := Core.Maxima(config, frames[k], det);
               |pts| == 2 && Core.Dist2(pts[0], pts[1]) == sep2
    ensures var v := det.sqrt(sep2 as real);
            forall k :: 1 <= k <= |frames| ==>
              GetOutputValues(c, k) == Ok([(SpotCountKey, 2.0), (MinDistKey, v), (MeanDistKey, v), (P10DistKey, v)])
  {
    var v := det.sqrt(sep2 as real);
    forall k | 1 <= k <= |frames|
      ensures GetOutputValues(c, k) == Ok([(SpotCountKey, 2.0), (MinDistKey, v), (MeanDistKey, v), (P10DistKey, v)])
    {
      TwoSpotOutput(c, k - 1, config, frames[k - 1], det, sep2);
    }
  }

  /** A recorded frame with two maxima at squared separation `sep2` reads
      back as count 2 and min = mean = p10 = the separation. */
  lemma TwoSpotOutput<Img>(c: Counter<Img>, pos: int, config: Core.Config, img: Img, det: Core.Detector<Img>, sep2: nat)
    requires |c.spotCounts| <= JavaInt.IntMax
    requires RecordsFrame(c, pos, config, img, det)
    requires sep2 as real < Core.NoNeighbour
    requires var pts := Core.Maxima(config, img, det);
             |pts| == 2 && Core.Dist2(pts[0], pts[1]) == sep2
    ensures var v := det.sqrt(sep2 as real);
            GetOutputValues(c, pos + 1) == Ok([(SpotCountKey, 2.0), (MinDistKey, v), (MeanDistKey, v), (P10DistKey, v)])
  {
    var v := det.sqrt(sep2 as real);
    TwoSpotFrame(config, img, det, sep2);
    OutputOfRecordedFrame(c, pos, config, img, det, Core.FrameStats(v, v, v));
  }
}

=== FILE: spot_counter_core.dfy ===
/** `SpotCounterCore`: turns the local maxima of one frame into square
    regions, reduces them to nearest-neighbour statistics and appends one
    row per frame to its results table.

    Local-maximum detection (`FindLocalMaxima.FindMax`) and `Math.sqrt` are
    not part of this model; they are supplied as the functions of a
    `Detector`. */
module SpotCounterCore {
  import opened Results
  import JavaInt
  import Sorting

  /** A detected local maximum, in pixels. */
  datatype Point = Point(x: int, y: int)

  /** The integer bounds of an `ij.gui.Roi`: top-left corner and size. */
  datatype Roi = Roi(x: int, y: int, width: int, height: int)

  /** The three distance columns that `getFrameStats` produces. */
  datatype FrameStats = FrameStats(minDistance: real, meanDistance: real, p10Distance: real)

  /** One row of the results table. Column "n" is always set; the distance
      columns are set only when `getFrameStats` returned normally. */
  datatype Row = Row(n: nat, stats: Option<FrameStats>)

  /** The configuration a core is built with; it never changes afterwards. */
  datatype Config = Config(noiseTolerance: int, boxSize: int)

  /** The analyzer's state: its configuration and its results table, which
      is `None` until the first `analyze` call creates it. */
  datatype Core = Core(config: Config, table: Option<seq<Row>>)

  /** The exception `getFrameStats` throws for fewer than two spots. */
  datatype Error = ArrayIndexOutOfBounds(index: int, length: int)

  /** The code this model does not contain: `FindMax(frame, boxSize,
      noiseTolerance)` and the square root. */
  datatype Detector<!Img> = Detector(findMax: (Img, int, int) -> seq<Point>, sqrt: real -> real)

  /** The squared distance a spot keeps when no other spot is closer. */
  const NoNeighbour: real := 1000000000.0

  function NewCore(noiseTolerance: int, boxSize: int): Core {
    Core(Config(noiseTolerance, boxSize), None)
  }

  /** The rows of the table so far (none before it is created). */
  function Rows(core: Core): seq<Row> {
    if core.table.Some? then core.table.value else []
  }

  // ---------------------------------------------------------------- regions

  /** The square region of side `boxSize` drawn around one maximum. */
  function SpotRoi(p: Point, boxSize: int): (r: Roi)
    ensures r.width == boxSize && r.height == boxSize
    ensures r.x + JavaInt.Half(boxSize) == p.x && r.y + JavaInt.Half(boxSize) == p.y
  {
    var half := JavaInt.Half(boxSize);
    Roi(p.x - half, p.y - half, boxSize, boxSize)
  }

  /** `getSpotOverlay`: one region per maximum, in the order FindMax lists them. */
  function SpotOverlay(maxima: seq<Point>, boxSize: int): (ov: seq<Roi>)
    ensures |ov| == |maxima|
    ensures forall i :: 0 <= i < |ov| ==>
              ov[i].width == boxSize && ov[i].height == boxSize &&
              ov[i].x + JavaInt.Half(boxSize) == maxima[i].x &&
              ov[i].y + JavaInt.Half(boxSize) == maxima[i].y
  {
    seq(|maxima|, i requires 0 <= i < |maxima| => SpotRoi(maxima[i], boxSize))
  }

  /** `Rectangle.getCenterX` / `getCenterY`. */
  function CentreX(r: Roi): real {
    r.x as real + r.width as real / 2.0
  }

  function CentreY(r: Roi): real {
    r.y as real + r.height as real / 2.0
  }

  /** Squared distance between two region centres, as `getFrameStats` computes it. */
  function CentreDist2(a: Roi, b: Roi): real {
    (CentreX(a) - CentreX(b)) * (CentreX(a) - CentreX(b)) +
    (CentreY(a) - CentreY(b)) * (CentreY(a) - CentreY(b))
  }

  /** Squared pixel distance between two maxima. */
  function Dist2(p: Point, q: Point): int {
    (p.x - q.x) * (p.x - q.x) + (p.y - q.y) * (p.y - q.y)
  }

  lemma CentreDist2Symmetric(a: Roi, b: Roi)
    ensures CentreDist2(a, b) == CentreDist2(b, a)
  {
    var dx, dy := CentreX(a) - CentreX(b), CentreY(a) - CentreY(b);
    assert (CentreX(b) - CentreX(a)) * (CentreX(b) - CentreX(a)) == (-dx) * (-dx) == dx * dx;
    assert (CentreY(b) - CentreY(a)) * (CentreY(b) - CentreY(a)) == (-dy) * (-dy) == dy * dy;
  }

  /** All regions share one size, so their centres are the maxima shifted by
      one constant and centre distances are the (integer) pixel distances. */
  lemma OverlayDistanceIsPixelDistance(maxima: seq<Point>, boxSize: int, i: nat, j: nat)
    requires i < |maxima| && j < |maxima|
    ensures var ov := SpotOverlay(maxima, boxSize);
            CentreDist2(ov[i], ov[j]) == Dist2(maxima[i], maxima[j]) as real
  {
    var ov := SpotOverlay(maxima, boxSize);
    var dx := maxima[i].x - maxima[j].x;
    var dy := maxima[i].y - maxima[j].y;
    assert CentreX(ov[i]) - CentreX(ov[j]) == dx as real;
    assert CentreY(ov[i]) - CentreY(ov[j]) == dy as real;
    assert (dx * dx) as real == dx as real * dx as real;
    assert (dy * dy) as real == dy as real * dy as real;
  }

  // ------------------------------------------------------ nearest neighbours

  /** The inner loop of `getFrameStats` from index `j` on, with `best` the
      smallest squared distance seen so far; spot `i` is skipped. */
  function NearestFrom(ov: seq<Roi>, i: nat, j: nat, best: real): (d: real)
    requires i < |ov| && j <= |ov|
    ensures d <= best
    ensures forall k :: j <= k < |ov| && k != i ==> d <= CentreDist2(ov[i], ov[k])
    ensures d == best || exists k :: j <= k < |ov| && k != i && d == CentreDist2(ov[i], ov[k])
    decreases |ov| - j
  {
    if j == |ov| then best
    else if j == i then NearestFrom(ov, i, j + 1, best)
    else
      var dist2 := CentreDist2(ov[i], ov[j]);
      NearestFrom(ov, i, j + 1, if dist2 < best then dist2 else best)
  }

  /** Squared nearest-neighbour distance of spot `i`: the least of
      `NoNeighbour` and its squared distances to every other spot. */
  function NearestDist2(ov: seq<Roi>, i: nat): (d: real)
    requires i < |ov|
    ensures d <= NoNeighbour
    ensures forall k :: 0 <= k < |ov| && k != i ==> d <= CentreDist2(ov[i], ov[k])
    ensures d == NoNeighbour || exists k :: 0 <= k < |ov| && k != i && d == CentreDist2(ov[i], ov[k])
  {
    NearestFrom(ov, i, 0, NoNeighbour)
  }

  /** The array `min_distances` before sorting. */
  function Distances(ov: seq<Roi>, sqrt: real -> real): (d: seq<real>)
    ensures |d| == |ov|
  {
    seq(|ov|, i requires 0 <= i < |ov| => sqrt(NearestDist2(ov, i)))
  }

  // ------------------------------------------------------------- statistics

  /** `(int) ceil((double) n / 10.0)` for a count `n`. */
  function P10Index(n: nat): (k: nat)
    ensures 10 * (k - 1) < n <= 10 * k
  {
    (n + 9) / 10
  }

  /** The ceil(n/10) index lies inside an `n`-element array exactly when n >= 2. */
  lemma P10InBounds(n: nat)
    ensures P10Index(n) < n <==> n >= 2
  {
  }

  /** What the statistics of a frame mean for its per-spot distances `d`:
      the least value, the arithmetic mean, and the element at index
      ceil(n/10) of every ascending arrangement of `d`. */
  ghost predicate Summarises(st: FrameStats, d: seq<real>) {
    && |d| >= 2
    && (forall i :: 0 <= i < |d| ==> st.minDistance <= d[i])
    && st.minDistance in d
    && st.meanDistance == Sorting.Sum(d) / |d| as real
    && st.p10Distance in d
    && st.minDistance <= st.p10Distance
    && (forall s :: Sorting.IsSortingOf(s, d) ==> s[P10Index(|d|)] == st.p10Distance)
  }

  /** `getFrameStats`. With no spot, reading `min_distances[0]` fails; with
      one spot, reading `min_distances[1]` fails. */
  function GetFrameStats(ov: seq<Roi>, sqrt: real -> real): (r: Result<FrameStats, Error>)
    ensures r.Ok? <==> |ov| >= 2
    ensures |ov| == 0 ==> r == Err(ArrayIndexOutOfBounds(0, 0))
    ensures |ov| == 1 ==> r == Err(ArrayIndexOutOfBounds(1, 1))
    ensures r.Ok? ==> Summarises(r.value, Distances(ov, sqrt))
  {
    var d := Distances(ov, sqrt);
    var sorted := Sorting.Sort(d);
    var n := |ov|;
    if n == 0 then Err(ArrayIndexOutOfBounds(0, 0))
    else
      var p10 := P10Index(n);
      if p10 >= n then Err(ArrayIndexOutOfBounds(p10, n))
      else
        var st := FrameStats(sorted[0], Sorting.Sum(sorted) / n as real, sorted[p10]);
        SummarisesSorted(st, d, sorted);
        Ok(st)
  }

  lemma SummarisesSorted(st: FrameStats, d: seq<real>, sorted: seq<real>)
    requires Sorting.IsSortingOf(sorted, d) && Sorting.Sum(sorted) == Sorting.Sum(d)
    requires |d| >= 2 && P10Index(|d|) < |d|
    requires st == FrameStats(sorted[0], Sorting.Sum(sorted) / |d| as real, sorted[P10Index(|d|)])
    ensures Summarises(st, d)
  {
    var k := P10Index(|d|);
    SortedHeadIsLeast(sorted, d);
    assert sorted[k] in multiset(sorted);
    assert st.minDistance <= st.p10Distance;
    assert st.p10Distance in d;
    assert forall s :: Sorting.IsSortingOf(s, d) ==> s[P10Index(|d|)] == st.p10Distance by {
      forall s | Sorting.IsSortingOf(s, d)
        ensures s[k] == st.p10Distance
      {
        Sorting.SortedPermutationUnique(s, sorted);
      }
    }
  }

  lemma SortedHeadIsLeast(sorted: seq<real>, d: seq<real>)
    requires Sorting.IsSortingOf(sorted, d) && |d| > 0
    ensures sorted[0] in d
    ensures forall i :: 0 <= i < |d| ==> sorted[0] <= d[i]
  {
    assert sorted[0] in multiset(sorted);
    forall i | 0 <= i < |d|
      ensures sorted[0] <= d[i]
    {
      assert d[i] in multiset(d);
      var m :| 0 <= m < |sorted| && sorted[m] == d[i];
    }
  }

  /** The nearest-neighbour value both of two spots get. */
  function PairDistance(a: Roi, b: Roi, sqrt: real -> real): real {
    var d2 := CentreDist2(a, b);
    sqrt(if d2 < NoNeighbour then d2 else NoNeighbour)
  }

  lemma TwoSpotDistances(ov: seq<Roi>, sqrt: real -> real)
    requires |ov| == 2
    ensures Distances(ov, sqrt) == [PairDistance(ov[0], ov[1], sqrt), PairDistance(ov[0], ov[1], sqrt)]
  {
    CentreDist2Symmetric(ov[0], ov[1]);
    assert NearestDist2(ov, 0) <= CentreDist2(ov[0], ov[1]);
    assert NearestDist2(ov, 1) <= CentreDist2(ov[1], ov[0]);
  }

  /** Sorting two equal values leaves them as they are. */
  lemma SortEqualPair(v: real)
    ensures Sorting.Sort([v, v]) == [v, v]
  {
    var sorted := Sorting.Sort([v, v]);
    assert multiset(sorted) == multiset{v, v};
    assert sorted[0] in multiset(sorted) && sorted[1] in multiset(sorted);
  }

  /** With exactly two spots each is the other's nearest neighbour, so the
      minimum, the mean and the p10 value coincide. */
  lemma TwoSpots(ov: seq<Roi>, sqrt: real -> real)
    requires |ov| == 2
    ensures var v := PairDistance(ov[0], ov[1], sqrt);
            GetFrameStats(ov, sqrt) == Ok(FrameStats(v, v, v))
  {
    var v := PairDistance(ov[0], ov[1], sqrt);
    TwoSpotDistances(ov, sqrt);
    SortEqualPair(v);
    assert Sorting.Sum([v, v]) == v + v;
  }

  // ---------------------------------------------------------------- analyze

  /** The maxima `FindMax` reports for one frame under a configuration. */
  function Maxima<Img>(config: Config, img: Img, det: Detector<Img>): seq<Point> {
    det.findMax(img, config.boxSize, config.noiseTolerance)
  }

  /** The statistics of one frame under a configuration. */
  function StatsOf<Img>(config: Config, img: Img, det: Detector<Img>): Result<FrameStats, Error> {
    GetFrameStats(SpotOverlay(Maxima(config, img, det), config.boxSize), det.sqrt)
  }

  /** The result of `analyze`: the updated core, and either the table it
      returns or the exception it throws. */
  datatype Analysis = Analysis(core: Core, result: Result<seq<Row>, Error>)

  /** `analyze`: creates the table on the first call, appends one row holding
      the spot count, then fills in the distance columns. When the statistics
      fail the row keeps only its count and the exception propagates. */
  function Analyze<Img>(core: Core, img: Img, det: Detector<Img>): (a: Analysis)
    ensures a.core.config == core.config
    ensures a.core.table.Some?
    ensures |Rows(a.core)| == |Rows(core)| + 1
    ensures Rows(a.core)[..|Rows(core)|] == Rows(core)
    ensures var last := Rows(a.core)[|Rows(core)|];
            && last.n == |Maxima(core.config, img, det)|
            && (last.stats.Some? <==> |Maxima(core.config, img, det)| >= 2)
            && (last.stats.Some? ==> StatsOf(core.config, img, det) == Ok(last.stats.value))
    ensures a.result.Ok? <==> |Maxima(core.config, img, det)| >= 2
    ensures a.result.Err? ==> StatsOf(core.config, img, det) == Err(a.result.error)
    ensures a.result.Err? ==>
              var m := |Maxima(core.config, img, det)|;
              a.result.error == ArrayIndexOutOfBounds(m, m)
    ensures a.result.Ok? ==> a.result.value == Rows(a.core)
  {
    var ov := SpotOverlay(Maxima(core.config, img, det), core.config.boxSize);
    var rows := Rows(core);
    match GetFrameStats(ov, det.sqrt)
    case Ok(st) =>
      var table := rows + [Row(|ov|, Some(st))];
      Analysis(core.(table := Some(table)), Ok(table))
    case Err(e) =>
      Analysis(core.(table := Some(rows + [Row(|ov|, None)])), Err(e))
  }
}
